=== FILE: README.md ===
# remindian in Dafny

A model of the core of `remindian`, a command-line tool that reads a Markdown file. It picks out the checklist lines, such as `- [] buy milk  %% note %%`, and reports them as items. The model has four parts:

- **The checklist parser** (`ChecklistParser.parseLines` and `ChecklistItem`):
  - The one regular expression the parser uses is stated as a language of line cuts (`LineGrammar.IsMatch`).
  - The cut the regex engine settles on is a function (`LineGrammar.Decompose`). It is proved sound and complete against that language, and to pick the shortest title the lazy group allows.
  - On top of that sit the per-line item builder (`ChecklistParser.ParseLine`), the line splitter, and the whole-text parser. The whole-text parser is given both as a fold and as the source's loop.
  - `ChecklistItem.description` is also modelled, with its layout and injectivity proved.
  - The parser's unit tests are stated as lemmas.
- **The in-memory reminder store** that the tests use in place of EventKit (`MockRemindersManager`). It is two maps with create, ensure-list, update, delete and query operations. The model proves an invariant that every operation preserves: each reminder lives in at most one list, and it has a completion entry exactly when it lives in some list.
- **The command line** (`Sources/CLI/main.swift`):
  - The option loop, modelled as a fold and as the source's `while` loop, proved equal.
  - The refusal when no file is named.
  - The choice between rewriting to another file, rewriting in place, and only parsing.
- **`Greeter.hello`.**

Files:

- `wrappers.dfy`: `Option` and `Result`.
- `text.dfy`: the character classes, trimming and decimal rendering.
- `line_grammar.dfy`: the line pattern.
- `checklist.dfy`: the items, the line splitting and `parseLines`.
- `checklist_examples.dfy`: the parser's unit tests.
- `reminder_store.dfy`: the mock store.
- `cli.dfy`: argument handling.
- `greeter.dfy`: the greeter.

Three facts about the code that the model keeps as written:

- The pattern `- \[([xX]?)\]` accepts only `[]`, `[x]` and `[X]`. A box holding a space, `[ ]`, never starts an item (`ChecklistParser.SpacedBoxRejected`).
- The title group `[^%\n]*?` stops at any `%`, not only at `%%` (`ChecklistParser.TitleLacksPercent`, `LineGrammar.CommentIffPercent`).
- `ChecklistParser.swift` has no encoder for items, no reminder-id annotation codec and no document rewriter, and `ChecklistItem` has no reminder-id fields, so the model has none of these. The canonical line shape `ChecklistParser.CanonicalLine` serves as the inverse of parsing instead.

## Model

| member | source | states |
|---|---|---|
| Text.Trim | Sources/RemindianCore/ChecklistParser.swift:56-57 | the trimmed text has no whitespace or line break at either end |
| Text.TrimEmpty | Sources/RemindianCore/ChecklistParser.swift:62 | a title trims to nothing exactly when it is all whitespace, which is when the empty-title guard drops the line |
| Text.TrimIgnoresWhitespace | Sources/RemindianCore/ChecklistParser.swift:56-61 | whitespace added around a capture does not change its trimmed form |
| Text.TrimKeepsLacks | Sources/RemindianCore/ChecklistParser.swift:56-57 | trimming never introduces a character that was not there |
| Text.IntToString | Sources/RemindianCore/ChecklistParser.swift:19-21 | the decimal form of a line number is never empty, holds no `]`, and starts with `-` exactly when the number is negative |
| Text.IntToStringRoundTrip | Sources/RemindianCore/ChecklistParser.swift:19-21 | the decimal line number that `description` prints reads back as the line number, negative numbers included |
| Text.IntToStringInjective | Sources/RemindianCore/ChecklistParser.swift:19-21 | distinct line numbers print differently |
| LineGrammar.SplitTailSound | Sources/RemindianCore/ChecklistParser.swift:33 | the title/comment cut computed for the text after `] ` is a cut in the language of the pattern |
| LineGrammar.SplitTailComplete | Sources/RemindianCore/ChecklistParser.swift:33 | every tail in the language is cut, with a title no longer than any other cut's, trimming to the same text, and with the same comment |
| LineGrammar.SplitTailUnclosed | Sources/RemindianCore/ChecklistParser.swift:33 | a `%%` with no further `%` after it makes the tail unmatchable |
| LineGrammar.BoxEnd | Sources/RemindianCore/ChecklistParser.swift:33 | the box closes at offset 3 or 4 or not at all; when it closes, `- [`, a token that is empty, `x` or `X`, and `] ` really sit there |
| LineGrammar.DecomposeNeedsDash | Sources/RemindianCore/ChecklistParser.swift:33 | a line whose first non-blank characters are not `- [` has no cut |
| LineGrammar.DecomposeSound | Sources/RemindianCore/ChecklistParser.swift:43-46 | every cut the engine model returns is a cut of the line in the language |
| LineGrammar.DecomposeComplete | Sources/RemindianCore/ChecklistParser.swift:43-46 | every line in the language is cut, with the same indentation and token as any cut of it, the shortest title and the same comment |
| LineGrammar.TailDeterminedByText | Sources/RemindianCore/ChecklistParser.swift:33 | two cuts of one tail with titles of the same length are the same cut |
| LineGrammar.MatchDeterminedByText | Sources/RemindianCore/ChecklistParser.swift:33 | two cuts of one line with titles of the same length are the same cut, so the lazy title fixes the match |
| LineGrammar.CommentIffPercent | Sources/RemindianCore/ChecklistParser.swift:33 | a matching line has a comment group exactly when it contains a `%` |
| ChecklistParser.ParseLine | Sources/RemindianCore/ChecklistParser.swift:43-66 | an item keeps the line, its number and the list name, and has a non-empty trimmed title |
| ChecklistParser.ParseLineSound | Sources/RemindianCore/ChecklistParser.swift:43-66 | an item comes only from a line in the language; its title and comment are the trimmed captures and it is checked iff the token is `x` or `X` |
| ChecklistParser.ParseLineComplete | Sources/RemindianCore/ChecklistParser.swift:43-62 | a line in the language gives an item exactly when its title capture is not all whitespace, and the item agrees with every cut of the line |
| ChecklistParser.ParseLineOfMatch | Sources/RemindianCore/ChecklistParser.swift:54-66 | the item of a matching line, field by field |
| ChecklistParser.ParseLineRejects | Sources/RemindianCore/ChecklistParser.swift:43-46 | a line outside the language gives no item |
| ChecklistParser.TitleLacksPercent | Sources/RemindianCore/ChecklistParser.swift:33 | no title contains `%` |
| ChecklistParser.SpacedBoxRejected | Sources/RemindianCore/ChecklistParser.swift:33 | a box holding a space, `[ ]`, never starts an item |
| ChecklistParser.UnclosedCommentRejected | Sources/RemindianCore/ChecklistParser.swift:33 | an unclosed `%%` rejects the whole line |
| ChecklistParser.CanonicalLineIsMatch | Sources/RemindianCore/ChecklistParser.swift:33 | every line in the canonical shape is in the language of the pattern, with the expected cut |
| ChecklistParser.CanonicalLineRoundTrip | Sources/RemindianCore/ChecklistParser.swift:43-66 | a canonical line parses back to exactly the item it was written from: checked iff the token is `x` or `X`, the same title and comment |
| ChecklistParser.HasCommentIffPercent | Sources/RemindianCore/ChecklistParser.swift:58-61 | an item has a comment (`hasComment`) exactly when its line contains a `%` |
| ChecklistParser.DescriptionNamesList | Sources/RemindianCore/ChecklistParser.swift:16-22 | when the list name holds no `|`, the first `|` of `description` sits two places after the name, and the text between the opening `[` and that ` |` reads back as the list name |
| ChecklistParser.DescriptionRestLayout | Sources/RemindianCore/ChecklistParser.swift:16-22 | after the number comes `] `, then `[x]` or `[ ]`, then a space and the title, then ` (comment: c)` exactly when there is a comment |
| ChecklistParser.DescriptionInjective | Sources/RemindianCore/ChecklistParser.swift:16-22 | items with the same list and title but different line number, checked state or comment have different descriptions |
| ChecklistParser.SplitLines | Sources/RemindianCore/ChecklistParser.swift:41 | the text splits into at least one line, none holding a line break |
| ChecklistParser.SplitJoin | Sources/RemindianCore/ChecklistParser.swift:41 | splitting lines joined with `\n` gives them back |
| ChecklistParser.JoinSplit | Sources/RemindianCore/ChecklistParser.swift:41 | joining the lines of a text whose only breaks are `\n` gives the text back |
| ChecklistParser.SplitAtBreak | Sources/RemindianCore/ChecklistParser.swift:41 | every line-break character ends a line |
| ChecklistParser.CrLfGivesEmptyLine | Sources/RemindianCore/ChecklistParser.swift:41 | `\r\n` counts as two separators, with an empty line between them |
| ChecklistParser.ParseEach | Sources/RemindianCore/ChecklistParser.swift:42-66 | one outcome per line, the `j`-th being the parse of line `j` numbered `j + 1` |
| ChecklistParser.Present | Sources/RemindianCore/ChecklistParser.swift:63-66 | no more items than outcomes |
| ChecklistParser.PresentSound | Sources/RemindianCore/ChecklistParser.swift:63-66 | every kept item is the outcome at the position its line number names |
| ChecklistParser.PresentOrdered | Sources/RemindianCore/ChecklistParser.swift:63-66 | kept items come in strictly increasing line number |
| ChecklistParser.PresentComplete | Sources/RemindianCore/ChecklistParser.swift:63-66 | every present outcome is kept |
| ChecklistParser.ParseLines | Sources/RemindianCore/ChecklistParser.swift:38-69 | no more items than the text has lines |
| ChecklistParser.ParseLinesLoop | Sources/RemindianCore/ChecklistParser.swift:38-69 | the source's enumerate-and-append loop computes `ParseLines` |
| ChecklistParser.EnumerateLoop | Sources/RemindianCore/ChecklistParser.swift:40-68 | for any per-line parse, the enumerate-and-append loop keeps exactly the present outcomes, in line order, each line parsed with its 1-based number |
| ChecklistParser.ParseLinesShape | Sources/RemindianCore/ChecklistParser.swift:38-68 | at most one item per line, each carrying the caller's list name and a non-empty title |
| ChecklistParser.ParseLinesSound | Sources/RemindianCore/ChecklistParser.swift:42-66 | each item is the parse of the line its number names |
| ChecklistParser.ParseLinesOrdered | Sources/RemindianCore/ChecklistParser.swift:42-66 | items come in strictly increasing line number |
| ChecklistParser.ParseLinesComplete | Sources/RemindianCore/ChecklistParser.swift:42-66 | every line that parses contributes its item |
| ChecklistExamples.SingleLine | Sources/RemindianCore/ChecklistParser.swift:41-42 | a text without line breaks is one line numbered 1 |
| ChecklistExamples.CanonicalText | Sources/RemindianCore/ChecklistParser.swift:38-69 | a one-line canonical text gives exactly its item |
| ChecklistExamples.MissingBoxRejected | Sources/RemindianCore/ChecklistParser.swift:33 | `- ` that ends the line, or is followed by a character other than `[`, gives no item |
| ChecklistExamples.ParseLinesOfJoin | Sources/RemindianCore/ChecklistParser.swift:41-66 | a text of break-free lines joined by `\n` is parsed line by line |
| ChecklistExamples.SimpleInput | Tests/RemindianCoreTests/ChecklistParserTests.swift:6 | the canonical line spells the test input |
| ChecklistExamples.SimpleLine | Tests/RemindianCoreTests/ChecklistParserTests.swift:5-11 | one unchecked item, title `this is a reminder`, no comment |
| ChecklistExamples.CheckedInputs | Tests/RemindianCoreTests/ChecklistParserTests.swift:13-25 | the canonical lines spell the two test inputs |
| ChecklistExamples.CheckedLowercase | Tests/RemindianCoreTests/ChecklistParserTests.swift:13-18 | one checked item, title `completed task` |
| ChecklistExamples.CheckedUppercase | Tests/RemindianCoreTests/ChecklistParserTests.swift:20-25 | one checked item, title `done task` |
| ChecklistExamples.IndentedInput | Tests/RemindianCoreTests/ChecklistParserTests.swift:28 | the canonical line spells the test input |
| ChecklistExamples.IndentedLine | Tests/RemindianCoreTests/ChecklistParserTests.swift:27-32 | an indented line gives one item, title `another reminder` |
| ChecklistExamples.CommentInput | Tests/RemindianCoreTests/ChecklistParserTests.swift:35 | the canonical line spells the test input |
| ChecklistExamples.LineWithComment | Tests/RemindianCoreTests/ChecklistParserTests.swift:34-40 | title `do something` and comment `created on 2025-09-14` |
| ChecklistExamples.BadSpacingInput | Tests/RemindianCoreTests/ChecklistParserTests.swift:43 | the line built from its parts spells the test input |
| ChecklistExamples.InvalidSpacingInsidePrefix | Tests/RemindianCoreTests/ChecklistParserTests.swift:42-46 | `-   [] bad spacing` gives no items |
| ChecklistExamples.MixedInputs | Tests/RemindianCoreTests/ChecklistParserTests.swift:49-54 | the four lines spell the test's lines |
| ChecklistExamples.MixedBreakFree | Tests/RemindianCoreTests/ChecklistParserTests.swift:49-54 | none of the four lines holds a line break |
| ChecklistExamples.MixedFirst | Tests/RemindianCoreTests/ChecklistParserTests.swift:50 | `- [] good one` gives its item |
| ChecklistExamples.MixedSecond | Tests/RemindianCoreTests/ChecklistParserTests.swift:51 | `-   [] bad` gives none |
| ChecklistExamples.MixedThird | Tests/RemindianCoreTests/ChecklistParserTests.swift:52 | `   - [] spaced okay` gives its item |
| ChecklistExamples.MixedFourth | Tests/RemindianCoreTests/ChecklistParserTests.swift:53 | `- [] another %% meta %%` gives its item with comment `meta` |
| ChecklistExamples.ParseEachOfFour | Sources/RemindianCore/ChecklistParser.swift:42-66 | four lines are parsed with numbers 1 to 4 |
| ChecklistExamples.PresentOfFour | Sources/RemindianCore/ChecklistParser.swift:63-66 | only the present outcomes are kept, in order |
| ChecklistExamples.FourLines | Sources/RemindianCore/ChecklistParser.swift:38-69 | four lines of which the second is rejected give the other three items |
| ChecklistExamples.MixedLines | Tests/RemindianCoreTests/ChecklistParserTests.swift:48-58 | titles `good one`, `spaced okay`, `another`; the last has comment `meta` |
| ReminderStore.HolderFrom | Tests/RemindianCoreTests/MockRemindersManager.swift:50-56 | the search returns a list holding the id, or finds none in the remaining lists |
| ReminderStore.Holder | Tests/RemindianCoreTests/MockRemindersManager.swift:50-51 | the search finds a list exactly when some list holds the id |
| ReminderStore.HolderUnique | Tests/RemindianCoreTests/MockRemindersManager.swift:6-7 | in a valid store the search finds the one list holding the id, in any iteration order |
| ReminderStore.RequestAccess | Tests/RemindianCoreTests/MockRemindersManager.swift:13-15 | access is always granted |
| ReminderStore.EnsureList | Tests/RemindianCoreTests/MockRemindersManager.swift:26-31 | the list exists afterwards; an existing one is untouched, a missing one is added empty; nothing else changes |
| ReminderStore.EnsureListKeepsReminders | Tests/RemindianCoreTests/MockRemindersManager.swift:26-31 | no reminder is gained or lost |
| ReminderStore.EnsureListIdempotent | Tests/RemindianCoreTests/MockRemindersManager.swift:26-31 | ensuring a list twice is ensuring it once |
| ReminderStore.EnsureListPreservesValid | Tests/RemindianCoreTests/MockRemindersManager.swift:26-31 | the store invariant is kept |
| ReminderStore.CreateReminder | Tests/RemindianCoreTests/MockRemindersManager.swift:33-43 | the id is `MOCK-` followed by the UUID; the reminder is filed under the list with its title and completion false; no other reminder changes |
| ReminderStore.CreatePreservesValid | Tests/RemindianCoreTests/MockRemindersManager.swift:33-43 | with an unused UUID the store invariant is kept |
| ReminderStore.CreateThenQuery | Tests/RemindianCoreTests/RemindersIntegrationTests.swift:33-38 | a created reminder reads back with its title, list and completion false |
| ReminderStore.UpdateReminder | Tests/RemindianCoreTests/MockRemindersManager.swift:49-58 | found iff some list holds the id; if found, title and completion are set in the list found and membership is unchanged; if not, nothing changes |
| ReminderStore.UpdatePreservesValid | Tests/RemindianCoreTests/MockRemindersManager.swift:49-58 | the store invariant is kept |
| ReminderStore.UpdateThenQuery | Tests/RemindianCoreTests/MockRemindersManager.swift:49-58 | after an update the reminder reads back with the new title and completion, in its old list |
| ReminderStore.DeleteReminder | Tests/RemindianCoreTests/MockRemindersManager.swift:60-68 | found iff some list holds the id; if found, it leaves that list and the completion map, and the list stays; if not, nothing changes |
| ReminderStore.DeletePreservesValid | Tests/RemindianCoreTests/MockRemindersManager.swift:60-68 | the store invariant is kept |
| ReminderStore.DeleteThenQuery | Tests/RemindianCoreTests/MockRemindersManager.swift:60-68 | after a delete in a valid store no list holds the id and every query answers nil |
| ReminderStore.GetReminderTitle | Tests/RemindianCoreTests/MockRemindersManager.swift:71-78 | nil exactly when no list holds the id; otherwise a title the id has in some list |
| ReminderStore.IsReminderCompleted | Tests/RemindianCoreTests/MockRemindersManager.swift:80-82 | the completion entry of the id, nil when there is none |
| ReminderStore.GetReminderListName | Tests/RemindianCoreTests/MockRemindersManager.swift:84-91 | nil exactly when no list holds the id; otherwise a list that holds it |
| ReminderStore.EmptyValid | Tests/RemindianCoreTests/MockRemindersManager.swift:6-7 | a fresh mock satisfies the invariant |
| ReminderStore.UnknownQueries | Tests/RemindianCoreTests/MockRemindersManager.swift:71-91 | every query about an unknown id answers nil |
| ReminderStore.QueriesIgnoreOrder | Tests/RemindianCoreTests/MockRemindersManager.swift:71-91 | in a valid store the title and list-name queries do not depend on dictionary order |
| Cli.ExitCode | Sources/CLI/main.swift:26-59 | every refusal of the arguments exits with status 1 |
| Cli.Scan | Sources/CLI/main.swift:26-53 | a file path the loop ends with is never an option name; `--rewrite` once set stays set |
| Cli.ParseArguments | Sources/CLI/main.swift:55-59 | an accepted file path is never an option name |
| Cli.ParseArgumentsLoop | Sources/CLI/main.swift:26-59 | the source's index loop, stepping by one or two, computes `ParseArguments` |
| Cli.SelectMode | Sources/CLI/main.swift:73-99 | rewrite to the output path iff one is given; otherwise rewrite in place iff `--rewrite`; otherwise parse only |
| Cli.ScanConcatFrom | Sources/CLI/main.swift:26-53 | once the loop has consumed a prefix without error it continues on the rest from the state reached |
| Cli.ScanShift | Sources/CLI/main.swift:26-53 | the loop on the part after a prefix behaves as on that part alone |
| Cli.ScanConcat | Sources/CLI/main.swift:26-53 | scanning a concatenation is scanning its parts in turn |
| Cli.LaterListWins | Sources/CLI/main.swift:29-36 | `--list v` sets the list name to `v`, even if `v` looks like an option, overriding earlier ones |
| Cli.LaterOutputWins | Sources/CLI/main.swift:37-44 | `--output v` sets the output path, overriding earlier ones |
| Cli.RewriteSets | Sources/CLI/main.swift:45-47 | `--rewrite` anywhere sets the flag |
| Cli.LastFileWins | Sources/CLI/main.swift:48-52 | the last non-option argument is the file path |
| Cli.TrailingFlagRefused | Sources/CLI/main.swift:29-44 | `--list` or `--output` as the last argument is refused with exit status 1 |
| Cli.NoArgumentsRefused | Sources/CLI/main.swift:55-59 | with no file named the run is refused |
| Cli.FileOnlyDefaults | Sources/CLI/main.swift:21-24 | a lone file name runs with list `remindian`, no output, no rewrite, parse only |
| Cli.RefusedIff | Sources/CLI/main.swift:26-59 | the run is refused exactly when the loop fails or names no file |
| Cli.Render | Sources/CLI/main.swift:26-53 | a configuration as an argument list ending in its file path |
| Cli.RenderRoundTrip | Sources/CLI/main.swift:26-59 | reading back the argument list of a configuration gives that configuration |
| Greeter.Hello | Sources/RemindianCore/Greeter.swift:2-7 | the greeting is `Hello, ` + the name + `!`, with `world` for an absent or empty name |
| Greeter.HelloRoundTrip | Sources/RemindianCore/Greeter.swift:3-4 | a non-empty name is read back from its greeting |
| Greeter.HelloInjective | Sources/RemindianCore/Greeter.swift:3-4 | distinct non-empty names get distinct greetings |
| Greeter.DefaultGreeting | Tests/RemindianCoreTests/GreeterTests.swift:6-8 | no name gives `Hello, world!`, as do the empty name and `world` |
| Greeter.GreetAlice | Tests/RemindianCoreTests/GreeterTests.swift:10-12 | `Alice` gives `Hello, Alice!` |

Some members are definitions with no contract of their own. The rows above state what they mean:

- `LineGrammar.IsMatch`, the language of the pattern at `ChecklistParser.swift:33`: `LineGrammar.DecomposeSound`, `LineGrammar.DecomposeComplete` and `ChecklistParser.CanonicalLineIsMatch`.
- `LineGrammar.Decompose` and `LineGrammar.SplitTail`, the match `firstMatch` reports at `ChecklistParser.swift:43-46`: `LineGrammar.DecomposeSound`, `LineGrammar.DecomposeComplete`, `LineGrammar.DecomposeNeedsDash`, `LineGrammar.SplitTailSound`, `LineGrammar.SplitTailComplete` and `LineGrammar.SplitTailUnclosed`.
- `ChecklistParser.ChecklistItem.Description` (`ChecklistParser.swift:16-22`): `ChecklistParser.DescriptionRestLayout`, `ChecklistParser.DescriptionNamesList` and `ChecklistParser.DescriptionInjective`.
- `ChecklistParser.ChecklistItem.HasComment` (`ChecklistParser.swift:11`): `ChecklistParser.HasCommentIffPercent`. `ChecklistParser.ChecklistItem.Text` (`ChecklistParser.swift:14`) is the title under its older name.
- `ReminderStore.Valid`, the agreement of the two maps of `MockRemindersManager.swift:6-7`: `ReminderStore.EmptyValid` and the `PreservesValid` lemma of each operation.

## Left out

- `ReminderStore`: list names and reminder ids are compared, and used as map keys, as sequences of Unicode scalars. Swift compares `String`s and hashes `Dictionary` keys up to canonical equivalence. So `"é"` and `"e\u{301}"` name one list in the mock and two lists in the model. Likewise an id spelled with KELVIN SIGN (U+212A) in place of the `K` of `MOCK-` finds the reminder in the mock but not in the model. The model agrees with the mock only when every key is written in one normal form.
- The `NSRegularExpression` engine itself is not modelled. The pattern is stated as the language `LineGrammar.IsMatch`, and the engine's choice of match is the function `LineGrammar.Decompose`, proved against that language.
- `ChecklistParser.ParseLine`: UTF-16 offsets and the `NSRange` to `Range` conversion in `substring` (`ChecklistParser.swift:71-76`) are not modelled. Strings are sequences of Unicode scalars, and a capture is always its exact slice of the line. In the source, `Range(range, in: line)` is nil when a group boundary falls inside a `Character` (a grapheme cluster), and `substring` then gives `""`. So the two differ:
  - a title that starts with a combining mark, as in `- [] \u{301}x`, drops the line in the source but gives the item titled `\u{301}x` in `ChecklistParser.ParseLine`;
  - a comment such as `%%\u{301}c%%` becomes the empty comment in the source but `\u{301}c` in the model;
  - a title or comment that ends in a Prepend character before a blank or `%` is also affected.

  The model agrees with the source whenever every group boundary is a grapheme-cluster boundary. Groups 1 and 2 always take part in a match, so their location is never `NSNotFound`. The comment range is tested for `NSNotFound` before `substring` is called.
- The `numberOfRanges >= 3` guard is not modelled. The pattern has three groups, so the guard never fails.
- `Text.IsWhitespace`: `CharacterSet.whitespacesAndNewlines` is approximated by tab, the line breaks and the Unicode space separators (category Zs). Other code points the Foundation set may include are not listed.
- `Text.IsLineBreak`: `CharacterSet.newlines` is modelled as U+000A to U+000D, U+0085, U+2028 and U+2029. Swift's grapheme clustering of `\r\n` does not affect `components(separatedBy:)`, which works on code units.
- The test inputs are not written as string literals. Each scenario's line is built with `ChecklistParser.CanonicalLine`, and a companion lemma (`ChecklistExamples.SimpleInput` and the others) shows it spells the test's literal.
- The fixture tests (`testFixtureMixed1` and the tests that follow it) are not modelled. They read `mixed1.md` and `mixed2.md`, which are not part of this model.
- The EventKit-backed `RemindersManager` is not modelled. Its authorization, persistence and completion dates are calls into a framework with no visible source.
- The mock's EventKit overrides (`getReminderLists`, `getReminderList`, `getReminder`) are not modelled; they only return empty values. The `EKCalendar?` that `ensureReminderList` returns is always `nil` and is not modelled either: `ReminderStore.EnsureList` returns only the new state.
- `ReminderStore.CreateReminder` takes the UUID as a parameter, because generating it is randomness. `ReminderStore.CreatePreservesValid` and `ReminderStore.CreateThenQuery` assume it is not already in use, as a random UUID almost surely is not.
- `ReminderStore.HolderFrom` takes Swift's dictionary iteration order as a parameter, because that order is unspecified. `ReminderStore.QueriesIgnoreOrder` and `ReminderStore.HolderUnique` show that under the invariant the order does not matter.
- `ReminderStore.UpdateThenQuery` and `ReminderStore.DeleteThenQuery` require the store invariant. On a store that breaks it, an id could sit in two lists, and the source updates or deletes only the first one found. The operations themselves model that case too.
- `requestAccess`'s `async` suspension is not modelled.
- In `main.swift` the following are not modelled: `printUsage` and its text, the `stderr` messages, the file-existence check (exit status 2), the `Task`/`RunLoop` plumbing, reading and writing files, the calls to `ChecklistParser.rewriteFile`, the printing of descriptions, and exit status 3 on failure. These are I/O and process control, and `rewriteFile` is not part of this model. `Cli.ExitCode` covers only the refusals of the arguments.
- The item encoder, the reminder-id annotation codec, the reconciliation with the store and the document rewriter are not modelled. None of them is part of `ChecklistParser.swift`, and `ChecklistItem` has no field they could fill.

=== FILE: checklist.dfy ===
/** `ChecklistItem` and `ChecklistParser.parseLines`: a checklist file is split
    into lines, every line that the checklist pattern accepts and whose
    trimmed title is not empty becomes one item, and the items come out in
    line order with 1-based line numbers. */
module ChecklistParser {
  import opened Text
  import opened Wrappers
  import opened LineGrammar

  /** One parsed checklist line. `lineNumber` is 1-based. */
  datatype ChecklistItem = ChecklistItem(
    rawLine: string,
    checked: bool,
    title: string,
    comment: Option<string>,
    lineNumber: int,
    list: string)
  {
    predicate HasComment() {
      comment.Some?
    }

    /** The older name of `title`. */
    function Text(): string {
      title
    }

    /** `[<list> | line: <n>] [x] <title>`, with ` (comment: <c>)` appended
        when the item has a comment; an unchecked item shows `[ ]`. */
    function Description(): string {
      "[" + list + " | line: " + IntToString(lineNumber) + DescriptionRest(this)
    }
  }

  /** The list name `parseLines` uses when its caller names none. */
  const DefaultList: string := "remindian"

  /** The captures of a cut turned into an item's fields: the title and the
      comment trimmed of whitespace, and the box checked when its token is
      `x` or `X`. */
  predicate Agrees(item: ChecklistItem, m: Match) {
    && item.title == Trim(m.tail.text)
    && (item.checked <==> m.token != "")
    && item.comment == (if m.tail.comment.None? then None else Some(Trim(m.tail.comment.value)))
  }

  /** The body of the `parseLines` loop for one line: `None` when the pattern
      does not match or the trimmed title is empty. */
  function ParseLine(line: string, lineNumber: int, list: string): (item: Option<ChecklistItem>)
    ensures item.Some? ==>
      && item.value.rawLine == line && item.value.lineNumber == lineNumber && item.value.list == list
      && item.value.title != [] && IsTrimmed(item.value.title)
  {
    match Decompose(line)
    case None => None
    case Some(m) =>
      var title := Trim(m.tail.text);
      var comment := if m.tail.comment.None? then None else Some(Trim(m.tail.comment.value));
      if title == [] then None
      else Some(ChecklistItem(line, m.token != "", title, comment, lineNumber, list))
  }

  /** An item comes only from a line in the language of the pattern, and its
      fields are the trimmed captures of a cut of that line. */
  lemma ParseLineSound(line: string, lineNumber: int, list: string)
    ensures ParseLine(line, lineNumber, list).Some? ==>
      var item := ParseLine(line, lineNumber, list).value;
      && item.rawLine == line && item.lineNumber == lineNumber && item.list == list
      && item.title != [] && IsTrimmed(item.title)
      && IsMatch(line, Decompose(line).value)
      && Agrees(item, Decompose(line).value)
  {
    DecomposeSound(line);
  }

  /** A title never holds a `%`: the title capture stops before the first
      one. */
  lemma TitleLacksPercent(line: string, lineNumber: int, list: string)
    requires ParseLine(line, lineNumber, list).Some?
    ensures Lacks(ParseLine(line, lineNumber, list).value.title, '%')
  {
    DecomposeSound(line);
    TrimKeepsLacks(Decompose(line).value.tail.text, '%');
  }

  /** Every line in the language of the pattern yields an item exactly when
      the title capture is not all whitespace, and then the item agrees with
      every cut of the line, whichever one the engine picks. */
  lemma ParseLineComplete(line: string, lineNumber: int, list: string, m: Match)
    requires IsMatch(line, m)
    ensures ParseLine(line, lineNumber, list).Some? <==> !AllWhitespace(m.tail.text)
    ensures ParseLine(line, lineNumber, list).Some? ==>
      Agrees(ParseLine(line, lineNumber, list).value, m)
  {
    DecomposeComplete(line, m);
    TrimEmpty(m.tail.text);
    ParseLineOfCut(line, lineNumber, list, Decompose(line).value);
  }

  /** `ParseLine` once the line's cut is known. */
  lemma ParseLineOfCut(line: string, lineNumber: int, list: string, d: Match)
    requires Decompose(line) == Some(d)
    ensures ParseLine(line, lineNumber, list) == if Trim(d.tail.text) == [] then None
      else Some(ChecklistItem(line, d.token != "", Trim(d.tail.text),
        if d.tail.comment.None? then None else Some(Trim(d.tail.comment.value)), lineNumber, list))
  {
  }

  /** The item of a line in the language whose title is not all
      whitespace, field by field. */
  lemma ParseLineOfMatch(line: string, lineNumber: int, list: string, m: Match)
    requires IsMatch(line, m) && !AllWhitespace(m.tail.text)
    ensures ParseLine(line, lineNumber, list) == Some(ChecklistItem(
      line, m.token != "", Trim(m.tail.text),
      if m.tail.comment.None? then None else Some(Trim(m.tail.comment.value)),
      lineNumber, list))
  {
    ParseLineComplete(line, lineNumber, list, m);
  }

  /** A line outside the language of the pattern yields no item. */
  lemma ParseLineRejects(line: string, lineNumber: int, list: string)
    requires forall m :: !IsMatch(line, m)
    ensures ParseLine(line, lineNumber, list) == None
  {
    DecomposeSound(line);
  }

  /** The pattern has no `[ ]` box: a line whose box holds a space is never
      an item, whatever follows it. */
  lemma SpacedBoxRejected(indent: string, rest: string, lineNumber: int, list: string)
    requires AllBlank(indent)
    ensures ParseLine(indent + "- [ ]" + rest, lineNumber, list) == None
  {
    var line := indent + "- [ ]" + rest;
    var body := "- [ ]" + rest;
    var w := |indent|;
    assert LeadingBlanks(line) == w && line[w + 3] == ' ' by {
      assert line == indent + body;
      LeadingBlanksOfIndent(indent, body);
      assert line[w + 3] == body[3];
    }
    assert BoxEnd(line, w) == 0;
  }

  /** An unclosed comment rejects the whole line: after `%%` nothing holds
      another `%`, so the line is not an item, whatever its title. */
  lemma UnclosedCommentRejected(indent: string, token: string, head: string, rest: string, lineNumber: int, list: string)
    requires AllBlank(indent) && IsToken(token)
    requires Lacks(head, '%') && Lacks(rest, '%')
    ensures ParseLine(indent + "- [" + token + "] " + head + "%%" + rest, lineNumber, list) == None
  {
    var r := head + "%%" + rest;
    var line := indent + ("- [" + token + "] " + r);
    assert line == indent + "- [" + token + "] " + head + "%%" + rest;
    SplitTailUnclosed(head, rest);
    DecomposeOfPieces(line, indent, token, r);
  }

  /** A line written in the canonical shape: indentation, the box, a
      trimmed title, and optionally a `%%` comment set off by blanks. */
  function CanonicalLine(indent: string, token: string, title: string, gap: string, comment: Option<string>): string {
    var tail := if comment.None? then title else title + gap + "%%" + " " + comment.value + " " + "%%";
    indent + "- [" + token + "] " + tail
  }

  lemma CanonicalLineIsMatch(indent: string, token: string, title: string, gap: string, comment: Option<string>)
    requires AllBlank(indent) && IsToken(token) && AllBlank(gap) && Lacks(title, '%')
    ensures var tail := if comment.None? then Tail(title, "", None, "")
                  else Tail(title, gap, Some(" " + comment.value + " "), "");
      IsMatch(CanonicalLine(indent, token, title, gap, comment), Match(indent, token, tail))
  {
    if comment.Some? {
      var c := comment.value;
      assert title + gap + "%%" + (" " + c + " ") + "%%" + "" == title + gap + "%%" + " " + c + " " + "%%";
    } else {
      assert title + "" == title;
    }
  }

  /** Writing a line in the canonical shape and parsing it gives back the
      title, the box state and the comment. */
  lemma CanonicalLineRoundTrip(indent: string, token: string, title: string, gap: string, comment: Option<string>, lineNumber: int, list: string)
    requires AllBlank(indent) && IsToken(token) && AllBlank(gap) && Lacks(title, '%')
    requires title != [] && IsTrimmed(title)
    requires comment.Some? ==> IsTrimmed(comment.value)
    ensures var line := CanonicalLine(indent, token, title, gap, comment);
      ParseLine(line, lineNumber, list) == Some(ChecklistItem(line, token != "", title, comment, lineNumber, list))
  {
    var tail := if comment.None? then Tail(title, "", None, "")
                else Tail(title, gap, Some(" " + comment.value + " "), "");
    var line := CanonicalLine(indent, token, title, gap, comment);
    CanonicalLineIsMatch(indent, token, title, gap, comment);
    CanonicalTrims(title, comment);
    ParseLineOfMatch(line, lineNumber, list, Match(indent, token, tail));
  }

  /** The captures of a canonical line trim back to its title and comment. */
  lemma CanonicalTrims(title: string, comment: Option<string>)
    requires title != [] && IsTrimmed(title)
    requires comment.Some? ==> IsTrimmed(comment.value)
    ensures Trim(title) == title && !AllWhitespace(title)
    ensures comment.Some? ==> Trim(" " + comment.value + " ") == comment.value
  {
    TrimOfTrimmed(title);
    TrimEmpty(title);
    if comment.Some? {
      var c := comment.value;
      assert AllWhitespace(" ");
      TrimIgnoresWhitespace(" ", c, " ");
      TrimOfTrimmed(c);
    }
  }

  /** An item has a comment exactly when its line holds a `%`: the `%` can
      only occur inside the `%%` part of the pattern. */
  lemma HasCommentIffPercent(line: string, lineNumber: int, list: string)
    requires ParseLine(line, lineNumber, list).Some?
    ensures ParseLine(line, lineNumber, list).value.HasComment() <==> !Lacks(line, '%')
  {
    DecomposeSound(line);
    CommentIffPercent(line, Decompose(line).value);
  }

  /** The first `c` in `head + rest` is the first character of `rest` when
      `head` holds none. */
  lemma FirstCharAt(head: string, rest: string, c: char)
    requires c !in head && rest != [] && rest[0] == c
    ensures IndexOf(head + rest, c) == |head|
  {
    var s := head + rest;
    assert forall i :: 0 <= i < |head| ==> s[i] == head[i] && head[i] in head;
    assert s[|head|] == c;
  }

  /** The three parts of `p + n + r`, read back by position. */
  lemma ThreeParts(p: string, n: string, r: string)
    ensures (p + n + r)[..|p|] == p
    ensures (p + n + r)[|p|..] == n + r
    ensures (n + r)[..|n|] == n && (n + r)[|n|..] == r
  {
  }

  /** The part of a description after the line number: `] `, the box state
      as `[x]` or `[ ]`, a space and the title, and ` (comment: <c>)` when
      the item has a comment. */
  function DescriptionRest(item: ChecklistItem): string {
    var status := if item.checked then "[x]" else "[ ]";
    var head := "] " + status + " " + item.title;
    if item.comment.Some? then head + " (comment: " + item.comment.value + ")" else head
  }

  /** Where the pieces sit after the line number: the closing `] `, the box
      character, the title, and the comment suffix, which is empty exactly
      when the item has no comment. */
  lemma DescriptionRestLayout(item: ChecklistItem)
    ensures var r := DescriptionRest(item);
      && |r| >= 6 + |item.title|
      && r[..2] == "] "
      && r[2..5] == (if item.checked then "[x]" else "[ ]")
      && r[5] == ' '
      && r[6..6 + |item.title|] == item.title
      && r[6 + |item.title|..] == (if item.comment.Some? then " (comment: " + item.comment.value + ")" else "")
  {
    var status := if item.checked then "[x]" else "[ ]";
    var head := "] " + status + " " + item.title;
    assert head[..2] == "] " && head[2..5] == status && head[5] == ' ' && head[6..] == item.title;
    if item.comment.Some? {
      var x := " (comment: " + item.comment.value + ")";
      assert DescriptionRest(item) == head + x;
      assert (head + x)[..|head|] == head;
      assert (head + x)[|head|..] == x;
    } else {
      assert head[|head|..] == [];
    }
  }

  /** The list name of an item whose name holds no `|` is read back from its
      description: it lies between the opening `[` and the ` |` that follows. */
  lemma DescriptionNamesList(item: ChecklistItem)
    requires '|' !in item.list
    ensures var d := item.Description();
      var k := IndexOf(d, '|');
      && k == |item.list| + 2
      && d[0] == '[' && d[1..k - 1] == item.list
  {
    var rest := "| line: " + IntToString(item.lineNumber) + DescriptionRest(item);
    assert item.Description() == "[" + item.list + " " + rest;
    NameBeforeBar(item.list, rest);
  }

  /** In `[name <rest>` with a `|`-free name and a rest starting with `|`,
      the first `|` follows the name and the space after it. */
  lemma NameBeforeBar(name: string, rest: string)
    requires '|' !in name && rest != [] && rest[0] == '|'
    ensures var d := "[" + name + " " + rest;
      && IndexOf(d, '|') == |name| + 2
      && d[0] == '[' && d[1..|name| + 1] == name
  {
    var p := "[" + name + " ";
    assert '|' !in p by {
      assert forall i :: 1 <= i < |p| - 1 ==> p[i] == name[i - 1];
    }
    FirstCharAt(p, rest, '|');
    assert (p + rest)[..|p|] == p;
  }

  /** A description determines the line number, the box state and the comment
      of an item once its list and title are known. */
  lemma DescriptionInjective(a: ChecklistItem, b: ChecklistItem)
    requires a.list == b.list && a.title == b.title
    requires a.Description() == b.Description()
    ensures a.lineNumber == b.lineNumber
    ensures a.checked == b.checked
    ensures a.comment == b.comment
  {
    var p := "[" + a.list + " | line: ";
    var na, nb := IntToString(a.lineNumber), IntToString(b.lineNumber);
    var ra, rb := DescriptionRest(a), DescriptionRest(b);
    DescriptionRestLayout(a);
    DescriptionRestLayout(b);
    assert na + ra == nb + rb by {
      ThreeParts(p, na, ra);
      ThreeParts(p, nb, rb);
    }
    BracketSplit(na, ra, nb, rb);
    IntToStringInjective(a.lineNumber, b.lineNumber);
    RestInjective(a, b);
  }

  /** Two ways of writing a text as a `]`-free part followed by a part that
      starts with `]` agree. */
  lemma BracketSplit(na: string, ra: string, nb: string, rb: string)
    requires ']' !in na && ']' !in nb
    requires ra != [] && ra[0] == ']' && rb != [] && rb[0] == ']'
    requires na + ra == nb + rb
    ensures na == nb && ra == rb
  {
    FirstCharAt(na, ra, ']');
    FirstCharAt(nb, rb, ']');
    ThreeParts([], na, ra);
    ThreeParts([], nb, rb);
  }

  /** The part of a description after the line number determines the box
      state and the comment once the title is known. */
  lemma RestInjective(a: ChecklistItem, b: ChecklistItem)
    requires a.title == b.title && DescriptionRest(a) == DescriptionRest(b)
    ensures a.checked == b.checked && a.comment == b.comment
  {
    DescriptionRestLayout(a);
    DescriptionRestLayout(b);
    var sa := DescriptionRest(a)[6 + |a.title|..];
    assert a.comment.Some? ==> a.comment.value == sa[11..|sa| - 1];
    assert b.comment.Some? ==> b.comment.value == sa[11..|sa| - 1];
  }

  /** Position of the first line break in `s` at or after `j`, or `|s|`. */
  function BreakFrom(s: string, j: nat): (n: nat)
    requires j <= |s|
    ensures j <= n <= |s|
    ensures forall i :: j <= i < n ==> !IsLineBreak(s[i])
    ensures n < |s| ==> IsLineBreak(s[n])
    decreases |s| - j
  {
    if j == |s| || IsLineBreak(s[j]) then j else BreakFrom(s, j + 1)
  }

  /** `content.components(separatedBy: .newlines)`: every line-break character
      ends a line, so `\r\n` leaves an empty line between its two halves. */
  function SplitLines(s: string): (lines: seq<string>)
    ensures |lines| >= 1
    ensures forall i :: 0 <= i < |lines| ==> NoLineBreak(lines[i])
    decreases |s|
  {
    var k := BreakFrom(s, 0);
    if k == |s| then [s] else [s[..k]] + SplitLines(s[k + 1..])
  }

  /** The lines joined back with `\n`. */
  function JoinLines(lines: seq<string>): string
    requires |lines| >= 1
  {
    if |lines| == 1 then lines[0] else lines[0] + "\n" + JoinLines(lines[1..])
  }

  /** Splitting undoes joining for lines that hold no break. */
  lemma {:induction false} SplitJoin(lines: seq<string>)
    requires |lines| >= 1
    requires forall i :: 0 <= i < |lines| ==> NoLineBreak(lines[i])
    ensures SplitLines(JoinLines(lines)) == lines
  {
    if |lines| == 1 {
      BreakFromIs(lines[0], 0, |lines[0]|);
    } else {
      var tail := lines[1..];
      assert forall i :: 0 <= i < |tail| ==> NoLineBreak(tail[i]) by {
        assert forall i :: 0 <= i < |tail| ==> tail[i] == lines[i + 1];
      }
      SplitJoin(tail);
      SplitJoinStep(lines[0], tail, JoinLines(lines));
      assert [lines[0]] + tail == lines;
    }
  }

  /** One step of `SplitJoin`: a break-free line joined in front of lines
      that split back is split off again. */
  lemma SplitJoinStep(line: string, tail: seq<string>, s: string)
    requires NoLineBreak(line) && |tail| >= 1
    requires s == line + "\n" + JoinLines(tail)
    requires SplitLines(JoinLines(tail)) == tail
    ensures SplitLines(s) == [line] + tail
  {
    assert s == line + ['\n'] + JoinLines(tail);
    SplitAtBreak(line, '\n', JoinLines(tail));
  }

  /** Joining a line in front of others puts one `\n` between them. */
  lemma JoinCons(line: string, lines: seq<string>)
    requires |lines| >= 1
    ensures JoinLines([line] + lines) == line + "\n" + JoinLines(lines)
  {
    assert ([line] + lines)[1..] == lines;
  }

  /** `SplitLines` cuts at the first break of a text that holds one. */
  lemma SplitLinesStep(s: string)
    requires BreakFrom(s, 0) < |s|
    ensures var k := BreakFrom(s, 0);
      SplitLines(s) == [s[..k]] + SplitLines(s[k + 1..])
  {
  }

  /** Any line-break character ends the line before it. */
  lemma SplitAtBreak(a: string, c: char, b: string)
    requires NoLineBreak(a) && IsLineBreak(c)
    ensures SplitLines(a + [c] + b) == [a] + SplitLines(b)
  {
    var s := a + [c] + b;
    assert forall i :: 0 <= i < |a| ==> s[i] == a[i];
    assert s[|a|] == c;
    BreakFromIs(s, 0, |a|);
    SplitLinesStep(s);
    assert s[..|a|] == a;
    assert s[|a| + 1..] == b;
  }

  /** A `\r\n` pair is two separators: the line after it is numbered two
      past the line before it, with an empty line in between. */
  lemma CrLfGivesEmptyLine(a: string, b: string)
    requires NoLineBreak(a) && NoLineBreak(b)
    ensures SplitLines(a + "\r\n" + b) == [a, "", b]
  {
    assert a + "\r\n" + b == a + ['\r'] + ("" + ['\n'] + b);
    SplitAtBreak(a, '\r', "" + ['\n'] + b);
    SplitAtBreak("", '\n', b);
    assert "" + ['\n'] + b == ['\n'] + b;
    BreakFromIs(b, 0, |b|);
  }

  /** Joining undoes splitting when every break in the text is `\n`. */
  lemma {:induction false} JoinSplit(s: string)
    requires forall i :: 0 <= i < |s| && IsLineBreak(s[i]) ==> s[i] == '\n'
    ensures JoinLines(SplitLines(s)) == s
    decreases |s|
  {
    var k := BreakFrom(s, 0);
    if k < |s| {
      var t := s[k + 1..];
      assert forall i :: 0 <= i < |t| && IsLineBreak(t[i]) ==> t[i] == '\n' by {
        assert forall i :: 0 <= i < |t| ==> t[i] == s[k + 1 + i];
      }
      JoinSplit(t);
      SplitLinesStep(s);
      JoinCons(s[..k], SplitLines(t));
      CutAtNewline(s, k);
    }
  }

  /** A text is the part before a `\n`, the `\n`, and the part after. */
  lemma CutAtNewline(s: string, k: nat)
    requires k < |s| && s[k] == '\n'
    ensures s == s[..k] + "\n" + s[k + 1..]
  {
    assert s[..k] + "\n" + s[k + 1..] == s[..k] + s[k..];
  }

  /** A break-free stretch that ends at a break or the end of `s` is the one
      `BreakFrom` finds. */
  lemma {:induction false} BreakFromIs(s: string, j: nat, n: nat)
    requires j <= n <= |s|
    requires forall i :: j <= i < n ==> !IsLineBreak(s[i])
    requires n < |s| ==> IsLineBreak(s[n])
    ensures BreakFrom(s, j) == n
    decreases n - j
  {
    if j < n {
      BreakFromIs(s, j + 1, n);
    }
  }

  /** What `parseLines` makes of each line, in order; line `j` of the list
      has line number `j + 1`. */
  function ParseEach(lines: seq<string>, list: string): (parsed: seq<Option<ChecklistItem>>)
    ensures |parsed| == |lines|
    ensures forall j :: 0 <= j < |lines| ==> parsed[j] == ParseLine(lines[j], j + 1, list)
  {
    seq(|lines|, j requires 0 <= j < |lines| => ParseLine(lines[j], j + 1, list))
  }

  /** Each present entry carries the line number of its position. */
  predicate Numbered(parsed: seq<Option<ChecklistItem>>) {
    forall j :: 0 <= j < |parsed| && parsed[j].Some? ==> parsed[j].value.lineNumber == j + 1
  }

  /** The present entries, in order: the `results.append` of the loop. */
  function Present(parsed: seq<Option<ChecklistItem>>): (items: seq<ChecklistItem>)
    ensures |items| <= |parsed|
  {
    if parsed == [] then []
    else
      var last := parsed[|parsed| - 1];
      Present(parsed[..|parsed| - 1]) + (if last.Some? then [last.value] else [])
  }

  /** Every item kept is the entry at the position its line number names. */
  lemma {:induction false} PresentSound(parsed: seq<Option<ChecklistItem>>, k: nat)
    requires Numbered(parsed) && k < |Present(parsed)|
    ensures var item := Present(parsed)[k];
      1 <= item.lineNumber <= |parsed| && parsed[item.lineNumber - 1] == Some(item)
  {
    var init := parsed[..|parsed| - 1];
    assert Numbered(init) by {
      assert forall j :: 0 <= j < |init| ==> init[j] == parsed[j];
    }
    if k < |Present(init)| {
      PresentSound(init, k);
      assert init[Present(init)[k].lineNumber - 1] == parsed[Present(init)[k].lineNumber - 1];
    }
  }

  /** Items are kept in strictly increasing line order. */
  lemma {:induction false} PresentOrdered(parsed: seq<Option<ChecklistItem>>, a: nat, b: nat)
    requires Numbered(parsed) && a < b < |Present(parsed)|
    ensures Present(parsed)[a].lineNumber < Present(parsed)[b].lineNumber
  {
    var init := parsed[..|parsed| - 1];
    assert Numbered(init) by {
      assert forall j :: 0 <= j < |init| ==> init[j] == parsed[j];
    }
    if b < |Present(init)| {
      PresentOrdered(init, a, b);
    } else {
      PresentSound(init, a);
    }
  }

  /** No present entry is dropped. */
  lemma {:induction false} PresentComplete(parsed: seq<Option<ChecklistItem>>, j: nat)
    requires j < |parsed| && parsed[j].Some?
    ensures exists k :: 0 <= k < |Present(parsed)| && Present(parsed)[k] == parsed[j].value
  {
    var init := parsed[..|parsed| - 1];
    var items := Present(parsed);
    if j == |parsed| - 1 {
      assert items[|items| - 1] == parsed[j].value;
    } else {
      assert init[j] == parsed[j];
      PresentComplete(init, j);
      var k :| 0 <= k < |Present(init)| && Present(init)[k] == parsed[j].value;
      assert items[k] == Present(init)[k];
    }
  }

  /** `ChecklistParser.parseLines`. */
  function ParseLines(content: string, list: string): (items: seq<ChecklistItem>)
    ensures |items| <= |SplitLines(content)|
  {
    Present(ParseEach(SplitLines(content), list))
  }

  /** `parseLines` as written: split the text, then run the loop below with
      the per-line parse for the caller's list. */
  method ParseLinesLoop(content: string, list: string) returns (results: seq<ChecklistItem>)
    ensures results == ParseLines(content, list)
  {
    var lines := SplitLines(content);
    var parse := (line: string, n: int) => ParseLine(line, n, list);
    results := EnumerateLoop(lines, parse);
    assert Outcomes(lines, parse) == ParseEach(lines, list);
  }

  /** The outcome of `parse` on every line, numbered from 1. */
  function Outcomes(lines: seq<string>, parse: (string, int) -> Option<ChecklistItem>): (parsed: seq<Option<ChecklistItem>>)
    ensures |parsed| == |lines|
    ensures forall j :: 0 <= j < |lines| ==> parsed[j] == parse(lines[j], j + 1)
  {
    seq(|lines|, j requires 0 <= j < |lines| => parse(lines[j], j + 1))
  }

  /** The `for (idx, line) in lines.enumerated()` loop of `parseLines`: one
      pass that appends the item of each line `parse` accepts. */
  method EnumerateLoop(lines: seq<string>, parse: (string, int) -> Option<ChecklistItem>) returns (results: seq<ChecklistItem>)
    ensures results == Present(Outcomes(lines, parse))
  {
    ghost var parsed := Outcomes(lines, parse);
    results := [];
    var idx := 0;
    while idx < |lines|
      invariant idx <= |lines|
      invariant results == Present(parsed[..idx])
      decreases |lines| - idx
    {
      var item := parse(lines[idx], idx + 1);
      PresentAppend(parsed, idx);
      if item.Some? {
        results := results + [item.value];
      }
      idx := idx + 1;
    }
    assert parsed[..idx] == parsed;
  }

  /** Taking one more outcome keeps one more item exactly when it is present. */
  lemma PresentAppend(parsed: seq<Option<ChecklistItem>>, idx: nat)
    requires idx < |parsed|
    ensures Present(parsed[..idx + 1]) ==
      Present(parsed[..idx]) + (if parsed[idx].Some? then [parsed[idx].value] else [])
  {
    var p := parsed[..idx + 1];
    assert p[..|p| - 1] == parsed[..idx];
    assert p[|p| - 1] == parsed[idx];
  }

  /** Every item of a text is the parse of the line its number names. */
  lemma ParseLinesSound(content: string, list: string, k: nat)
    requires k < |ParseLines(content, list)|
    ensures var lines := SplitLines(content);
      var item := ParseLines(content, list)[k];
      && 1 <= item.lineNumber <= |lines|
      && ParseLine(lines[item.lineNumber - 1], item.lineNumber, list) == Some(item)
  {
    var parsed := ParseEach(SplitLines(content), list);
    PresentSound(parsed, k);
  }

  /** A text yields at most one item per line, each carrying the list name
      it was parsed for and a non-empty trimmed title. */
  lemma ParseLinesShape(content: string, list: string)
    ensures |ParseLines(content, list)| <= |SplitLines(content)|
    ensures forall k :: 0 <= k < |ParseLines(content, list)| ==>
      ParseLines(content, list)[k].list == list && ParseLines(content, list)[k].title != []
  {
    forall k | 0 <= k < |ParseLines(content, list)|
      ensures ParseLines(content, list)[k].list == list && ParseLines(content, list)[k].title != []
    {
      ParseLinesSound(content, list, k);
    }
  }

  /** The items of a text come in strictly increasing line order. */
  lemma ParseLinesOrdered(content: string, list: string, a: nat, b: nat)
    requires a < b < |ParseLines(content, list)|
    ensures ParseLines(content, list)[a].lineNumber < ParseLines(content, list)[b].lineNumber
  {
    PresentOrdered(ParseEach(SplitLines(content), list), a, b);
  }

  /** Every line of a text that parses contributes its item. */
  lemma ParseLinesComplete(content: string, list: string, j: nat)
    requires j < |SplitLines(content)|
    requires ParseLine(SplitLines(content)[j], j + 1, list).Some?
    ensures exists k ::
      0 <= k < |ParseLines(content, list)| &&
      ParseLines(content, list)[k] == ParseLine(SplitLines(content)[j], j + 1, list).value
  {
    var lines := SplitLines(content);
    var parsed := ParseEach(lines, list);
    assert parsed[j] == ParseLine(lines[j], j + 1, list);
    PresentComplete(parsed, j);
    var items := Present(parsed);
    var k :| 0 <= k < |items| && items[k] == parsed[j].value;
    assert ParseLines(content, list) == items;
  }
}

=== FILE: checklist_examples.dfy ===
/** The parser's unit-test scenarios, stated as lemmas about the model.

    Each scenario's input is written with `CanonicalLine`; the `...Input`
    lemmas show that these spell exactly the test strings, and the
    scenarios themselves follow from the general parser lemmas. */
module ChecklistExamples {
  import opened Text
  import opened Wrappers
  import opened LineGrammar
  import opened ChecklistParser

  /** A text without line breaks is a single line, numbered 1. */
  lemma SingleLine(s: string, list: string)
    requires NoLineBreak(s)
    ensures ParseLines(s, list) == if ParseLine(s, 1, list).None? then [] else [ParseLine(s, 1, list).value]
  {
    BreakFromIs(s, 0, |s|);
    assert SplitLines(s) == [s];
    var parsed := ParseEach([s], list);
    assert parsed == [ParseLine(s, 1, list)];
    assert parsed[..0] == [];
  }

  /** A text made of one canonical line is exactly that line's item. */
  lemma CanonicalText(indent: string, token: string, title: string, gap: string, comment: Option<string>, list: string)
    requires AllBlank(indent) && IsToken(token) && AllBlank(gap) && Lacks(title, '%')
    requires title != [] && IsTrimmed(title)
    requires comment.Some? ==> IsTrimmed(comment.value)
    requires NoLineBreak(title) && (comment.Some? ==> NoLineBreak(comment.value))
    ensures var line := CanonicalLine(indent, token, title, gap, comment);
      ParseLines(line, list) == [ChecklistItem(line, token != "", title, comment, 1, list)]
  {
    CanonicalBreakFree(indent, token, title, gap, comment);
    CanonicalLineRoundTrip(indent, token, title, gap, comment, 1, list);
    SingleLine(CanonicalLine(indent, token, title, gap, comment), list);
  }

  /** A canonical line holds a break only where its title or comment does. */
  lemma CanonicalBreakFree(indent: string, token: string, title: string, gap: string, comment: Option<string>)
    requires AllBlank(indent) && IsToken(token) && AllBlank(gap)
    requires NoLineBreak(title) && (comment.Some? ==> NoLineBreak(comment.value))
    ensures NoLineBreak(CanonicalLine(indent, token, title, gap, comment))
  {
    var box := "- [" + token + "] ";
    assert NoLineBreak(box) by {
      assert forall i :: 0 <= i < |box| ==> box[i] in "- [xX] ";
    }
    if comment.Some? {
      var c := comment.value;
      NoLineBreakConcat(title, gap + "%%" + " " + c + " " + "%%");
      assert title + gap + "%%" + " " + c + " " + "%%" == title + (gap + "%%" + " " + c + " " + "%%");
    }
    var tail := if comment.None? then title else title + gap + "%%" + " " + comment.value + " " + "%%";
    NoLineBreakConcat(indent, box + tail);
    assert indent + "- [" + token + "] " + tail == indent + (box + tail);
  }

  /** A concatenation holds a break only where one of its parts does. */
  lemma NoLineBreakConcat(a: string, b: string)
    requires NoLineBreak(a) && NoLineBreak(b)
    ensures NoLineBreak(a + b)
  {
    assert forall i :: 0 <= i < |a + b| ==> (a + b)[i] == if i < |a| then a[i] else b[i - |a|];
  }

  /** `- ` that ends the line, or is followed by a character other than `[`,
      starts no item. */
  lemma MissingBoxRejected(indent: string, rest: string, lineNumber: int, list: string)
    requires AllBlank(indent) && (rest == [] || rest[0] != '[')
    ensures ParseLine(indent + "- " + rest, lineNumber, list) == None
  {
    var line := indent + "- " + rest;
    var w := |indent|;
    assert line == indent + ("- " + rest);
    LeadingBlanksOfIndent(indent, "- " + rest);
    if rest != [] {
      assert line[w + 2] == rest[0];
      assert line[w..w + 3] != "- [" by {
        assert line[w..w + 3][2] == rest[0];
      }
    }
    DecomposeNeedsDash(line);
  }

  /** The inputs of the single-line scenarios below, spelled out. */
  lemma SimpleInput()
    ensures CanonicalLine("", "", "this is a reminder", "", None) == "- [] this is a reminder"
  {
  }

  lemma CheckedInputs()
    ensures CanonicalLine("", "x", "completed task", "", None) == "- [x] completed task"
    ensures CanonicalLine("", "X", "done task", "", None) == "- [X] done task"
  {
  }

  lemma IndentedInput()
    ensures CanonicalLine("\t   ", "", "another reminder", "", None) == "\t   - [] another reminder"
  {
  }

  lemma BadSpacingInput()
    ensures "" + "- " + "  [] bad spacing" == "-   [] bad spacing"
  {
  }

  /** The input of the comment scenario, spelled out. */
  lemma CommentInput()
    ensures CanonicalLine("", "", "do something", "  ", Some("created on 2025-09-14"))
      == "- [] do something  %% created on 2025-09-14 %%"
  {
    assert "" + "- [" + "" + "] " == "- [] ";
    CommentTailSpelled();
    BoxAndTitleSpelled();
    CommentLineSpelled();
    Regroup("- [] ", "do something", "  %% created on 2025-09-14 %%", "- [] do something",
            "- [] do something  %% created on 2025-09-14 %%");
  }

  /** The comment scenario's tail: the title, then the gap and the comment. */
  lemma CommentTailSpelled()
    ensures "do something" + "  " + "%%" + " " + "created on 2025-09-14" + " " + "%%"
      == "do something" + "  %% created on 2025-09-14 %%"
  {
    assert "  " + "%%" + " " + "created on 2025-09-14" + " " + "%%" == "  %% created on 2025-09-14 %%";
  }

  /** The comment scenario's box and title, joined. */
  lemma BoxAndTitleSpelled()
    ensures "- [] " + "do something" == "- [] do something"
  {
  }

  /** The comment scenario's box and title, then its gap and comment. Long
      literals are joined at a balanced point: that is far cheaper for the
      solver than a short head on a long tail. */
  lemma CommentLineSpelled()
    ensures "- [] do something" + "  %% created on 2025-09-14 %%" == "- [] do something  %% created on 2025-09-14 %%"
  {
  }

  /** Joining `box`, `title` and `rest` in either grouping gives the same line. */
  lemma Regroup(box: string, title: string, rest: string, head: string, line: string)
    requires box + title == head && head + rest == line
    ensures box + (title + rest) == line
  {
    assert box + (title + rest) == box + title + rest;
  }

  /** The lines of the mixed scenario, spelled out. */
  lemma MixedInputs()
    ensures CanonicalLine("", "", "good one", "", None) == "- [] good one"
    ensures "" + "- " + "  [] bad" == "-   [] bad"
    ensures CanonicalLine("   ", "", "spaced okay", "", None) == "   - [] spaced okay"
    ensures CanonicalLine("", "", "another", " ", Some("meta")) == "- [] another %% meta %%"
  {
    MixedCommentSpelled();
  }

  /** The commented line of the mixed scenario, spelled out. */
  lemma MixedCommentSpelled()
    ensures CanonicalLine("", "", "another", " ", Some("meta")) == "- [] another %% meta %%"
  {
    assert "another" + " " + "%%" + " " + "meta" + " " + "%%" == "another %% meta %%";
  }

  /** `- [] this is a reminder`: one unchecked item without a comment. */
  lemma SimpleLine()
    ensures var items := ParseLines(CanonicalLine("", "", "this is a reminder", "", None), DefaultList);
      && |items| == 1
      && items[0].Text() == "this is a reminder"
      && !items[0].checked
      && items[0].comment == None
  {
    CanonicalText("", "", "this is a reminder", "", None, DefaultList);
  }

  /** `- [x] completed task`: one checked item. */
  lemma CheckedLowercase()
    ensures var items := ParseLines(CanonicalLine("", "x", "completed task", "", None), DefaultList);
      && |items| == 1
      && items[0].Text() == "completed task"
      && items[0].checked
  {
    CanonicalText("", "x", "completed task", "", None, DefaultList);
  }

  /** `- [X] done task`: one checked item, the box accepting either case. */
  lemma CheckedUppercase()
    ensures var items := ParseLines(CanonicalLine("", "X", "done task", "", None), DefaultList);
      && |items| == 1
      && items[0].Text() == "done task"
      && items[0].checked
  {
    CanonicalText("", "X", "done task", "", None, DefaultList);
  }

  /** `\t   - [] another reminder`: indentation is accepted. */
  lemma IndentedLine()
    ensures var items := ParseLines(CanonicalLine("\t   ", "", "another reminder", "", None), DefaultList);
      && |items| == 1
      && items[0].Text() == "another reminder"
  {
    CanonicalText("\t   ", "", "another reminder", "", None, DefaultList);
  }

  /** `- [] do something  %% created on 2025-09-14 %%`: the comment is split
      off the title and both are trimmed. */
  lemma LineWithComment()
    ensures var items := ParseLines(CanonicalLine("", "", "do something", "  ", Some("created on 2025-09-14")), DefaultList);
      && |items| == 1
      && items[0].Text() == "do something"
      && items[0].comment == Some("created on 2025-09-14")
  {
    CanonicalText("", "", "do something", "  ", Some("created on 2025-09-14"), DefaultList);
  }

  /** `-   [] bad spacing`: extra spaces between `-` and `[` give no item. */
  lemma InvalidSpacingInsidePrefix()
    ensures ParseLines("" + "- " + "  [] bad spacing", DefaultList) == []
  {
    MissingBoxRejected("", "  [] bad spacing", 1, DefaultList);
    LoneRejectedLine("" + "- " + "  [] bad spacing", DefaultList);
  }

  /** A single line that gives no item gives an empty checklist. */
  lemma LoneRejectedLine(s: string, list: string)
    requires NoLineBreak(s) && ParseLine(s, 1, list) == None
    ensures ParseLines(s, list) == []
  {
    SingleLine(s, list);
  }

  /** A text joined from break-free lines is parsed line by line. */
  lemma ParseLinesOfJoin(lines: seq<string>, list: string)
    requires |lines| >= 1
    requires forall i :: 0 <= i < |lines| ==> NoLineBreak(lines[i])
    ensures ParseLines(JoinLines(lines), list) == Present(ParseEach(lines, list))
  {
    SplitJoin(lines);
  }

  /** Keeping the present entries of a four-line result whose second line
      gave nothing. */
  lemma PresentOfFour(a: ChecklistItem, c: ChecklistItem, d: ChecklistItem)
    ensures Present([Some(a), None, Some(c), Some(d)]) == [a, c, d]
  {
    var p1: seq<Option<ChecklistItem>> := [Some(a)];
    var p2 := p1 + [None];
    var p3 := p2 + [Some(c)];
    var p4 := p3 + [Some(d)];
    assert p1[..0] == [];
    assert Present(p1) == [a];
    assert p2[..1] == p1;
    assert Present(p2) == [a];
    assert p3[..2] == p2;
    assert Present(p3) == [a, c];
    assert p4[..3] == p3;
    assert p4 == [Some(a), None, Some(c), Some(d)];
  }

  /** A sequence of length four, entry by entry. */
  lemma ListOfFour<T>(p: seq<T>, a: T, b: T, c: T, d: T)
    requires |p| == 4 && p[0] == a && p[1] == b && p[2] == c && p[3] == d
    ensures p == [a, b, c, d]
  {
  }

  /** Any per-line parse of four lines, numbered 1 to 4. */
  lemma OutcomesOfFour(l1: string, l2: string, l3: string, l4: string, parse: (string, int) -> Option<ChecklistItem>)
    ensures Outcomes([l1, l2, l3, l4], parse) == [parse(l1, 1), parse(l2, 2), parse(l3, 3), parse(l4, 4)]
  {
    var lines := [l1, l2, l3, l4];
    ListOfFour(Outcomes(lines, parse), parse(l1, 1), parse(l2, 2), parse(l3, 3), parse(l4, 4));
  }

  /** `ParseEach` is the per-line parse of the list, numbered from 1. */
  lemma ParseEachIsOutcomes(lines: seq<string>, list: string, parse: (string, int) -> Option<ChecklistItem>)
    requires forall line, n :: parse(line, n) == ParseLine(line, n, list)
    ensures ParseEach(lines, list) == Outcomes(lines, parse)
  {
  }

  /** Parsing four lines one by one, the lines numbered 1 to 4. */
  lemma ParseEachOfFour(l1: string, l2: string, l3: string, l4: string, list: string)
    ensures ParseEach([l1, l2, l3, l4], list)
      == [ParseLine(l1, 1, list), ParseLine(l2, 2, list), ParseLine(l3, 3, list), ParseLine(l4, 4, list)]
  {
    var parse := (line: string, n: int) => ParseLine(line, n, list);
    ParseEachIsOutcomes([l1, l2, l3, l4], list, parse);
    OutcomesOfFour(l1, l2, l3, l4, parse);
  }

  /** Four lines none of which holds a break. */
  lemma BreakFreeFour(l1: string, l2: string, l3: string, l4: string)
    requires NoLineBreak(l1) && NoLineBreak(l2) && NoLineBreak(l3) && NoLineBreak(l4)
    ensures forall i :: 0 <= i < 4 ==> NoLineBreak([l1, l2, l3, l4][i])
  {
  }

  /** Four break-free lines of which the second gives nothing. */
  lemma FourLines(lines: seq<string>, list: string, i1: ChecklistItem, i3: ChecklistItem, i4: ChecklistItem)
    requires |lines| == 4 && forall i :: 0 <= i < |lines| ==> NoLineBreak(lines[i])
    requires ParseEach(lines, list) == [Some(i1), None, Some(i3), Some(i4)]
    ensures ParseLines(JoinLines(lines), list) == [i1, i3, i4]
  {
    ParseLinesOfJoin(lines, list);
    PresentOfFour(i1, i3, i4);
  }

  /** `FourLines` from the outcome of each line. */
  lemma FourParsedLines(l1: string, l2: string, l3: string, l4: string, list: string,
                        i1: ChecklistItem, i3: ChecklistItem, i4: ChecklistItem)
    requires NoLineBreak(l1) && NoLineBreak(l2) && NoLineBreak(l3) && NoLineBreak(l4)
    requires ParseLine(l1, 1, list) == Some(i1) && ParseLine(l2, 2, list) == None
    requires ParseLine(l3, 3, list) == Some(i3) && ParseLine(l4, 4, list) == Some(i4)
    ensures ParseLines(JoinLines([l1, l2, l3, l4]), list) == [i1, i3, i4]
  {
    BreakFreeFour(l1, l2, l3, l4);
    ParseEachOfFour(l1, l2, l3, l4, list);
    FourLines([l1, l2, l3, l4], list, i1, i3, i4);
  }

  /** None of the lines of the mixed scenario holds a line break. */
  lemma MixedBreakFree()
    ensures NoLineBreak(CanonicalLine("", "", "good one", "", None))
    ensures NoLineBreak("" + "- " + "  [] bad")
    ensures NoLineBreak(CanonicalLine("   ", "", "spaced okay", "", None))
    ensures NoLineBreak(CanonicalLine("", "", "another", " ", Some("meta")))
  {
    CanonicalBreakFree("", "", "good one", "", None);
    CanonicalBreakFree("   ", "", "spaced okay", "", None);
    CanonicalBreakFree("", "", "another", " ", Some("meta"));
  }

  /** The lines of the mixed scenario, one at a time. */
  lemma MixedFirst()
    ensures var l := CanonicalLine("", "", "good one", "", None);
      ParseLine(l, 1, DefaultList) == Some(ChecklistItem(l, false, "good one", None, 1, DefaultList))
  {
    CanonicalLineRoundTrip("", "", "good one", "", None, 1, DefaultList);
  }

  lemma MixedSecond()
    ensures ParseLine("" + "- " + "  [] bad", 2, DefaultList) == None
  {
    MissingBoxRejected("", "  [] bad", 2, DefaultList);
  }

  lemma MixedThird()
    ensures var l := CanonicalLine("   ", "", "spaced okay", "", None);
      ParseLine(l, 3, DefaultList) == Some(ChecklistItem(l, false, "spaced okay", None, 3, DefaultList))
  {
    CanonicalLineRoundTrip("   ", "", "spaced okay", "", None, 3, DefaultList);
  }

  lemma MixedFourth()
    ensures var l := CanonicalLine("", "", "another", " ", Some("meta"));
      ParseLine(l, 4, DefaultList) == Some(ChecklistItem(l, false, "another", Some("meta"), 4, DefaultList))
  {
    CanonicalLineRoundTrip("", "", "another", " ", Some("meta"), 4, DefaultList);
  }

  /** Good and bad lines mixed: only the good ones, in order, and the last
      one keeps its comment. */
  lemma MixedLines()
    ensures var items := ParseLines(JoinLines([
        CanonicalLine("", "", "good one", "", None),
        "" + "- " + "  [] bad",
        CanonicalLine("   ", "", "spaced okay", "", None),
        CanonicalLine("", "", "another", " ", Some("meta"))]), DefaultList);
      && |items| == 3
      && items[0].Text() == "good one"
      && items[1].Text() == "spaced okay"
      && items[2].Text() == "another"
      && items[2].comment == Some("meta")
  {
    var l1 := CanonicalLine("", "", "good one", "", None);
    var l2 := "" + "- " + "  [] bad";
    var l3 := CanonicalLine("   ", "", "spaced okay", "", None);
    var l4 := CanonicalLine("", "", "another", " ", Some("meta"));
    var i1 := ChecklistItem(l1, false, "good one", None, 1, DefaultList);
    var i3 := ChecklistItem(l3, false, "spaced okay", None, 3, DefaultList);
    var i4 := ChecklistItem(l4, false, "another", Some("meta"), 4, DefaultList);
    MixedBreakFree();
    MixedFirst();
    MixedSecond();
    MixedThird();
    MixedFourth();
    FourParsedLines(l1, l2, l3, l4, DefaultList, i1, i3, i4);
  }
}

=== FILE: cli.dfy ===
/** The command line of the `remindian` tool: the option loop over the
    arguments, the check that a file was named, and the choice between
    rewriting to another file, rewriting in place and only parsing.

    The loop is a fold over the argument list from a position; printing the
    usage text, the file-existence check and the processing itself are I/O
    and are not modelled. */
module Cli {
  import opened Wrappers

  /** The option state the loop updates. */
  datatype Options = Options(listName: string, outputPath: Option<string>, rewrite: bool, filePath: Option<string>)

  /** The settings once a file has been named. */
  datatype Config = Config(listName: string, outputPath: Option<string>, rewrite: bool, filePath: string)

  /** Why the arguments were refused; every refusal prints the usage text. */
  datatype CliError = ListNeedsValue | OutputNeedsValue | MissingFile

  /** What the tool does with the file. */
  datatype Mode = RewriteTo(output: string) | RewriteInPlace | ParseOnly

  const DefaultListName: string := "remindian"

  /** The state before any argument is read. */
  const Defaults: Options := Options(DefaultListName, None, false, None)

  /** An argument the loop treats as an option name. */
  predicate IsFlag(arg: string) {
    arg == "--list" || arg == "--output" || arg == "--rewrite"
  }

  /** The process exit status of a refusal. */
  function ExitCode(e: CliError): (code: int)
    ensures code == 1
  {
    match e
    case ListNeedsValue => 1
    case OutputNeedsValue => 1
    case MissingFile => 1
  }

  /** The option loop from argument `i` on, starting from state `o`. `--list`
      and `--output` take the next argument whatever it is, `--rewrite` sets
      the flag, and anything else replaces the file path. */
  function Scan(args: seq<string>, i: nat, o: Options): (r: Result<Options, CliError>)
    requires i <= |args|
    ensures r.Ok? ==> r.value.filePath == o.filePath || (r.value.filePath.Some? && !IsFlag(r.value.filePath.value))
    ensures r.Ok? && o.rewrite ==> r.value.rewrite
    decreases |args| - i
  {
    if i == |args| then Ok(o)
    else if args[i] == "--list" then
      if i + 1 < |args| then Scan(args, i + 2, o.(listName := args[i + 1])) else Err(ListNeedsValue)
    else if args[i] == "--output" then
      if i + 1 < |args| then Scan(args, i + 2, o.(outputPath := Some(args[i + 1]))) else Err(OutputNeedsValue)
    else if args[i] == "--rewrite" then
      Scan(args, i + 1, o.(rewrite := true))
    else
      Scan(args, i + 1, o.(filePath := Some(args[i])))
  }

  /** The arguments after the program name, read into a configuration. */
  function ParseArguments(args: seq<string>): (r: Result<Config, CliError>)
    ensures r.Ok? ==> !IsFlag(r.value.filePath)
  {
    match Scan(args, 0, Defaults)
    case Err(e) => Err(e)
    case Ok(o) =>
      if o.filePath.None? then Err(MissingFile)
      else Ok(Config(o.listName, o.outputPath, o.rewrite, o.filePath.value))
  }

  /** The `while i < args.count` loop itself, with the index stepping by one
      or two; it computes exactly the fold `ParseArguments`. */
  method ParseArgumentsLoop(args: seq<string>) returns (r: Result<Config, CliError>)
    ensures r == ParseArguments(args)
  {
    var o := Defaults;
    var i := 0;
    while i < |args|
      invariant i <= |args|
      invariant Scan(args, i, o) == Scan(args, 0, Defaults)
      decreases |args| - i
    {
      var arg := args[i];
      if arg == "--list" {
        if i + 1 >= |args| {
          return Err(ListNeedsValue);
        }
        o := o.(listName := args[i + 1]);
        i := i + 2;
      } else if arg == "--output" {
        if i + 1 >= |args| {
          return Err(OutputNeedsValue);
        }
        o := o.(outputPath := Some(args[i + 1]));
        i := i + 2;
      } else if arg == "--rewrite" {
        o := o.(rewrite := true);
        i := i + 1;
      } else {
        o := o.(filePath := Some(arg));
        i := i + 1;
      }
    }
    if o.filePath.None? {
      return Err(MissingFile);
    }
    r := Ok(Config(o.listName, o.outputPath, o.rewrite, o.filePath.value));
  }

  /** An output path means rewriting into it; otherwise `--rewrite` means
      rewriting in place; otherwise the file is only parsed. */
  function SelectMode(c: Config): (m: Mode)
    ensures m.RewriteTo? <==> c.outputPath.Some?
    ensures m.RewriteTo? ==> m.output == c.outputPath.value
    ensures m.RewriteInPlace? <==> c.outputPath.None? && c.rewrite
    ensures m.ParseOnly? <==> c.outputPath.None? && !c.rewrite
  {
    if c.outputPath.Some? then RewriteTo(c.outputPath.value)
    else if c.rewrite then RewriteInPlace
    else ParseOnly
  }

  /** Scanning a concatenation: once the loop has consumed the first part
      without error, it continues on the second part from the state it
      reached. */
  lemma {:induction false} ScanConcatFrom(a: seq<string>, b: seq<string>, i: nat, o: Options)
    requires i <= |a|
    requires Scan(a, i, o).Ok?
    ensures Scan(a + b, i, o) == Scan(b, 0, Scan(a, i, o).value)
    decreases |a| - i
  {
    var ab := a + b;
    assert forall k :: 0 <= k < |a| ==> ab[k] == a[k];
    if i == |a| {
      ScanShift(a, b, 0, o);
    } else if a[i] == "--list" {
      ScanConcatFrom(a, b, i + 2, o.(listName := a[i + 1]));
    } else if a[i] == "--output" {
      ScanConcatFrom(a, b, i + 2, o.(outputPath := Some(a[i + 1])));
    } else if a[i] == "--rewrite" {
      ScanConcatFrom(a, b, i + 1, o.(rewrite := true));
    } else {
      ScanConcatFrom(a, b, i + 1, o.(filePath := Some(a[i])));
    }
  }

  /** Scanning the tail of `a + b` past `a` is scanning `b`. */
  lemma {:induction false} ScanShift(a: seq<string>, b: seq<string>, j: nat, o: Options)
    requires j <= |b|
    ensures Scan(a + b, |a| + j, o) == Scan(b, j, o)
    decreases |b| - j
  {
    var ab := a + b;
    assert forall k :: 0 <= k < |b| ==> ab[|a| + k] == b[k];
    if j < |b| {
      if b[j] == "--list" {
        if j + 1 < |b| {
          ScanShift(a, b, j + 2, o.(listName := b[j + 1]));
        }
      } else if b[j] == "--output" {
        if j + 1 < |b| {
          ScanShift(a, b, j + 2, o.(outputPath := Some(b[j + 1])));
        }
      } else if b[j] == "--rewrite" {
        ScanShift(a, b, j + 1, o.(rewrite := true));
      } else {
        ScanShift(a, b, j + 1, o.(filePath := Some(b[j])));
      }
    }
  }

  /** The whole-list form of `ScanConcatFrom`. */
  lemma ScanConcat(a: seq<string>, b: seq<string>, o: Options)
    requires Scan(a, 0, o).Ok?
    ensures Scan(a + b, 0, o) == Scan(b, 0, Scan(a, 0, o).value)
  {
    ScanConcatFrom(a, b, 0, o);
  }

  /** A later `--list v` overrides whatever came before, even when `v` looks
      like an option. */
  lemma LaterListWins(a: seq<string>, v: string, o: Options)
    requires Scan(a, 0, o).Ok?
    ensures Scan(a + ["--list", v], 0, o) == Ok(Scan(a, 0, o).value.(listName := v))
  {
    ScanConcat(a, ["--list", v], o);
  }

  /** Likewise a later `--output v`. */
  lemma LaterOutputWins(a: seq<string>, v: string, o: Options)
    requires Scan(a, 0, o).Ok?
    ensures Scan(a + ["--output", v], 0, o) == Ok(Scan(a, 0, o).value.(outputPath := Some(v)))
  {
    ScanConcat(a, ["--output", v], o);
  }

  /** `--rewrite` anywhere sets the flag for good. */
  lemma RewriteSets(a: seq<string>, b: seq<string>, o: Options)
    requires Scan(a, 0, o).Ok?
    requires Scan(a + ["--rewrite"] + b, 0, o).Ok?
    ensures Scan(a + ["--rewrite"] + b, 0, o).value.rewrite
  {
    ScanConcat(a, ["--rewrite"] + b, o);
    assert a + ["--rewrite"] + b == a + (["--rewrite"] + b);
  }

  /** The last argument that is not an option (nor an option's value) is the
      file path. */
  lemma LastFileWins(a: seq<string>, f: string, o: Options)
    requires Scan(a, 0, o).Ok? && !IsFlag(f)
    ensures Scan(a + [f], 0, o) == Ok(Scan(a, 0, o).value.(filePath := Some(f)))
  {
    ScanConcat(a, [f], o);
  }

  /** `--list` or `--output` as the last argument is refused, with exit
      status 1, whatever came before it. */
  lemma TrailingFlagRefused(a: seq<string>, flag: string)
    requires Scan(a, 0, Defaults).Ok?
    requires flag == "--list" || flag == "--output"
    ensures ParseArguments(a + [flag]) == Err(if flag == "--list" then ListNeedsValue else OutputNeedsValue)
    ensures ExitCode(ParseArguments(a + [flag]).error) == 1
  {
    ScanConcat(a, [flag], Defaults);
  }

  /** With no arguments there is no file, and the usage text ends the run. */
  lemma NoArgumentsRefused()
    ensures ParseArguments([]) == Err(MissingFile)
  {
  }

  /** A lone file name runs with the defaults and only parses. */
  lemma FileOnlyDefaults(f: string)
    requires !IsFlag(f)
    ensures ParseArguments([f]) == Ok(Config(DefaultListName, None, false, f))
    ensures SelectMode(ParseArguments([f]).value) == ParseOnly
  {
    LastFileWins([], f, Defaults);
    assert [] + [f] == [f];
  }

  /** Whether the run ends in `exit(1)` before any processing: exactly when
      the loop stops on a dangling option or never sees a file. */
  lemma RefusedIff(args: seq<string>)
    ensures ParseArguments(args).Err? <==> Scan(args, 0, Defaults).Err? || Scan(args, 0, Defaults).value.filePath.None?
  {
  }

  /** The canonical argument list for a configuration. */
  function Render(c: Config): (args: seq<string>)
    ensures |args| >= 3
    ensures args[|args| - 1] == c.filePath
  {
    ["--list", c.listName]
      + (if c.outputPath.Some? then ["--output", c.outputPath.value] else [])
      + (if c.rewrite then ["--rewrite"] else [])
      + [c.filePath]
  }

  /** Reading back the canonical arguments of a configuration yields it,
      provided its file name is not itself an option name. */
  lemma RenderRoundTrip(c: Config)
    requires !IsFlag(c.filePath)
    ensures ParseArguments(Render(c)) == Ok(c)
  {
    var a := ["--list", c.listName];
    var b := if c.outputPath.Some? then ["--output", c.outputPath.value] else [];
    var d := if c.rewrite then ["--rewrite"] else [];
    var o1 := Defaults.(listName := c.listName);
    var o2 := o1.(outputPath := c.outputPath);
    var o3 := o2.(rewrite := c.rewrite);
    assert Scan(a, 0, Defaults) == Ok(o1);
    ScanConcat(a, b, Defaults);
    assert Scan(b, 0, o1) == Ok(o2);
    ScanConcat(a + b, d, Defaults);
    assert Scan(d, 0, o2) == Ok(o3);
    ScanConcat(a + b + d, [c.filePath], Defaults);
    assert Render(c) == a + b + d + [c.filePath];
  }
}

=== FILE: greeter.dfy ===
/** `Greeter.hello(name:)`: a greeting for a name, with "world" standing in
    for a missing or empty one. */
module Greeter {
  import opened Wrappers

  const Opening: string := "Hello, "
  const Closing: string := "!"
  const DefaultName: string := "world"

  /** The greeting for `name`; an absent name and an empty one both greet
      the world. */
  function Hello(name: Option<string>): (greeting: string)
    ensures |greeting| >= |Opening| + |Closing|
    ensures greeting[..|Opening|] == Opening
    ensures greeting[|greeting| - 1..] == Closing
    ensures greeting[|Opening|..|greeting| - 1] == if name.Some? && name.value != [] then name.value else DefaultName
  {
    if name.Some? && name.value != [] then Opening + name.value + Closing
    else Opening + DefaultName + Closing
  }

  /** The name a greeting addresses: what lies between the opening and the
      closing mark. */
  function Addressee(greeting: string): (name: string)
    requires |greeting| >= |Opening| + |Closing|
    ensures |name| == |greeting| - |Opening| - |Closing|
  {
    greeting[|Opening|..|greeting| - 1]
  }

  /** A non-empty name is read back from its greeting. */
  lemma HelloRoundTrip(name: string)
    requires name != []
    ensures Addressee(Hello(Some(name))) == name
  {
  }

  /** Distinct non-empty names get distinct greetings. */
  lemma HelloInjective(a: string, b: string)
    requires a != [] && b != []
    requires Hello(Some(a)) == Hello(Some(b))
    ensures a == b
  {
    HelloRoundTrip(a);
    HelloRoundTrip(b);
  }

  /** The greetings with no name, with an empty name, and for "world" agree. */
  lemma DefaultGreeting()
    ensures Hello(None) == "Hello, world!"
    ensures Hello(Some("")) == Hello(None)
    ensures Hello(Some(DefaultName)) == Hello(None)
  {
  }

  /** The custom-name case of the unit tests. */
  lemma GreetAlice()
    ensures Hello(Some("Alice")) == "Hello, Alice!"
  {
  }
}

=== FILE: line_grammar.dfy ===
/** The one line shape the checklist parser recognises,
    `^[\t ]*- \[([xX]?)\] ([^%\n]*?)(?:[\t ]*%%(.*?)%%)?[\t ]*$`,
    stated as a decomposition of the line into pieces rather than as a regular
    expression engine.

    The parser only ever applies the pattern to a single line, which holds no
    line-break character, so `.` and `[^%\n]` reduce to "any character" and
    "any character but `%`", and `$` to the end of the line.

    `IsMatch` is the language of the pattern: a line matches exactly when it
    can be cut into the pieces a `Match` names. `Decompose` computes the cut a
    backtracking engine settles on; the lemmas below show that it finds a cut
    whenever one exists, that its title capture is the shortest possible (the
    lazy `*?`), and that the cut is unique once the title length is fixed. */
module LineGrammar {
  import opened Text
  import opened Wrappers

  /** The part of a line after `] `: title text, then optionally blanks and a
      `%%`-delimited comment, then trailing blanks. */
  datatype Tail = Tail(text: string, gap: string, comment: Option<string>, trailing: string)

  /** A full cut of a line: indentation, checkbox token and tail. */
  datatype Match = Match(indent: string, token: string, tail: Tail)

  function TailText(t: Tail): string {
    match t.comment
    case None => t.text + t.trailing
    case Some(c) => t.text + t.gap + "%%" + c + "%%" + t.trailing
  }

  /** The line after its indentation. */
  function BodyText(m: Match): string {
    "- [" + m.token + "] " + TailText(m.tail)
  }

  function MatchText(m: Match): string {
    m.indent + BodyText(m)
  }

  /** Constraints the pattern puts on the pieces of a tail. */
  predicate TailPieces(t: Tail) {
    && Lacks(t.text, '%')
    && AllBlank(t.gap)
    && AllBlank(t.trailing)
    && (t.comment.None? ==> t.gap == "")
  }

  /** The checkbox token `([xX]?)`. */
  predicate IsToken(token: string) {
    token == "" || token == "x" || token == "X"
  }

  ghost predicate IsTailMatch(r: string, t: Tail) {
    TailPieces(t) && r == TailText(t)
  }

  /** `line` is in the language of the checklist pattern, cut as `m`. */
  ghost predicate IsMatch(line: string, m: Match) {
    && AllBlank(m.indent)
    && IsToken(m.token)
    && TailPieces(m.tail)
    && line == MatchText(m)
  }

  /** Position of the first `c` in `s`, or `|s|` when there is none. */
  function IndexOf(s: string, c: char): (n: nat)
    ensures n <= |s|
    ensures forall i :: 0 <= i < n ==> s[i] != c
    ensures n < |s| ==> s[n] == c
  {
    IndexFrom(s, c, 0)
  }

  /** Position of the first `c` in `s` at or after `j`, or `|s|`. */
  function IndexFrom(s: string, c: char, j: nat): (n: nat)
    requires j <= |s|
    ensures j <= n <= |s|
    ensures forall i :: j <= i < n ==> s[i] != c
    ensures n < |s| ==> s[n] == c
    decreases |s| - j
  {
    if j == |s| || s[j] == c then j else IndexFrom(s, c, j + 1)
  }

  /** A position with no `c` before it and `c` or the end at it is the one
      `IndexFrom` finds. */
  lemma {:induction false} IndexFromIs(s: string, c: char, j: nat, n: nat)
    requires j <= n <= |s|
    requires forall i :: j <= i < n ==> s[i] != c
    requires n < |s| ==> s[n] == c
    ensures IndexFrom(s, c, j) == n
    decreases n - j
  {
    if j < n {
      IndexFromIs(s, c, j + 1, n);
    }
  }

  lemma PlainTailSound(r: string, k: nat)
    requires k <= |r| && Lacks(r, '%')
    requires forall i :: k <= i < |r| ==> IsBlank(r[i])
    ensures IsTailMatch(r, Tail(r[..k], "", None, r[k..]))
  {
    assert r == r[..k] + r[k..];
  }

  lemma CommentTailSound(r: string, k: nat, p: nat, e: nat)
    requires k <= p && p + 4 <= e <= |r|
    requires forall i :: 0 <= i < p ==> r[i] != '%'
    requires forall i :: k <= i < p ==> IsBlank(r[i])
    requires forall i :: e <= i < |r| ==> IsBlank(r[i])
    requires r[p] == '%' && r[p + 1] == '%' && r[e - 2] == '%' && r[e - 1] == '%'
    ensures IsTailMatch(r, Tail(r[..k], r[k..p], Some(r[p + 2..e - 2]), r[e..]))
  {
    var t := Tail(r[..k], r[k..p], Some(r[p + 2..e - 2]), r[e..]);
    assert TailPieces(t) by {
      assert Lacks(r[..k], '%');
      assert AllBlank(r[k..p]);
      assert AllBlank(r[e..]);
    }
    assert r == TailText(t) by {
      assert r[p..p + 2] == "%%" && r[e - 2..e] == "%%";
      assert r[..k] + r[k..p] == r[..p];
      assert r[..p] + r[p..p + 2] == r[..p + 2];
      assert r[..p + 2] + r[p + 2..e - 2] == r[..e - 2];
      assert r[..e - 2] + r[e - 2..e] == r[..e];
      assert r[..e] + r[e..] == r;
    }
  }

  /** Cuts the text after `] ` as the engine does: the title is the shortest
      `%`-free prefix after which the rest of the pattern can match. */
  function SplitTail(r: string): Option<Tail> {
    var p := IndexOf(r, '%');
    if p == |r| then
      var k := |r| - TrailingBlanks(r);
      Some(Tail(r[..k], "", None, r[k..]))
    else
      var k := p - BlanksBefore(r, p);
      var e := |r| - TrailingBlanks(r);
      if p + 4 <= e && r[p + 1] == '%' && r[e - 2] == '%' && r[e - 1] == '%' then
        Some(Tail(r[..k], r[k..p], Some(r[p + 2..e - 2]), r[e..]))
      else
        None
  }

  /** Every cut `SplitTail` returns is a cut of the tail in the language. */
  lemma SplitTailSound(r: string)
    ensures SplitTail(r).Some? ==> IsTailMatch(r, SplitTail(r).value)
  {
    var p := IndexOf(r, '%');
    var e := |r| - TrailingBlanks(r);
    if p == |r| {
      var t := Tail(r[..e], "", None, r[e..]);
      assert SplitTail(r) == Some(t);
      assert IsTailMatch(r, t) by {
        PlainTailSound(r, e);
      }
    } else if p + 4 <= e && r[p + 1] == '%' && r[e - 2] == '%' && r[e - 1] == '%' {
      var k := p - BlanksBefore(r, p);
      var t := Tail(r[..k], r[k..p], Some(r[p + 2..e - 2]), r[e..]);
      assert SplitTail(r) == Some(t);
      assert IsTailMatch(r, t) by {
        CommentTailSound(r, k, p, e);
      }
    } else {
      assert SplitTail(r) == None;
    }
  }

  /** A `%%` that is never closed: when nothing after it holds a `%`, the
      tail is not cut at all. */
  lemma SplitTailUnclosed(head: string, rest: string)
    requires Lacks(head, '%') && Lacks(rest, '%')
    ensures SplitTail(head + "%%" + rest) == None
  {
    var r := head + "%%" + rest;
    assert r == head + ("%%" + rest);
    FirstPercentAt(head, "%%" + rest);
    var e := |r| - TrailingBlanks(r);
    if e >= |head| + 3 {
      assert r[e - 1] == rest[e - 1 - |head| - 2];
    }
  }

  lemma PrefixSound(line: string, w: nat, close: nat, t: Tail)
    requires w + close + 2 <= |line| && (close == 3 || close == 4)
    requires forall i :: 0 <= i < w ==> IsBlank(line[i])
    requires line[w..w + 3] == "- [" && IsToken(line[w + 3..w + close])
    requires line[w + close] == ']' && line[w + close + 1] == ' '
    requires IsTailMatch(line[w + close + 2..], t)
    ensures IsMatch(line, Match(line[..w], line[w + 3..w + close], t))
  {
    SpellOut(line, w, close, TailText(t));
  }

  /** A line cut at `w` and `close` is its indentation, its box and the rest
      put back together. */
  lemma SpellOut(line: string, w: nat, close: nat, rest: string)
    requires w + close + 2 <= |line| && 3 <= close
    requires line[w..w + 3] == "- [" && line[w + close] == ']' && line[w + close + 1] == ' '
    requires line[w + close + 2..] == rest
    ensures line == line[..w] + ("- [" + line[w + 3..w + close] + "] " + rest)
  {
    var body := line[w..];
    assert body == "- [" + line[w + 3..w + close] + "] " + rest by {
      SliceAfter(line, w, body, close);
      CutInFour(body, 3, close, close + 2);
      assert body[close..close + 2] == "] ";
    }
    assert line == line[..w] + body;
  }

  /** A string is the concatenation of its pieces between three cut points. */
  lemma CutInFour(s: string, a: nat, b: nat, c: nat)
    requires a <= b <= c <= |s|
    ensures s == s[..a] + s[a..b] + s[b..c] + s[c..]
  {
    assert s[..a] + s[a..b] == s[..b];
    assert s[..b] + s[b..c] == s[..c];
  }

  /** Where the box of a line whose indentation ends at `w` closes: the
      offset from `w` of its `]` when `- [`, a token and `] ` follow, and 0
      when they do not. The optional `[xX]` is taken whenever a `]` follows
      it, as the engine tries it first. */
  function BoxEnd(line: string, w: nat): (close: nat)
    requires w <= |line|
    ensures close == 0 || close == 3 || close == 4
    ensures close != 0 ==>
      && w + close + 2 <= |line|
      && line[w..w + 3] == "- [" && IsToken(line[w + 3..w + close])
      && line[w + close] == ']' && line[w + close + 1] == ' '
  {
    if w + 3 <= |line| && line[w] == '-' && line[w + 1] == ' ' && line[w + 2] == '[' then
      var close := if w + 5 <= |line| && (line[w + 3] == 'x' || line[w + 3] == 'X') && line[w + 4] == ']' then 4 else 3;
      if w + close + 2 <= |line| && line[w + close] == ']' && line[w + close + 1] == ' ' then
        assert line[w..w + 3] == "- [";
        assert close == 4 ==> line[w + 3..w + close] == [line[w + 3]];
        close
      else 0
    else 0
  }

  /** Cuts a whole line: leading blanks, `- [`, the token, `] `, then the tail. */
  function Decompose(line: string): Option<Match> {
    var w := LeadingBlanks(line);
    var close := BoxEnd(line, w);
    if close == 0 then None
    else
      match SplitTail(line[w + close + 2..])
      case None => None
      case Some(t) => Some(Match(line[..w], line[w + 3..w + close], t))
  }

  /** A line whose first non-blank characters are not `- [` is not cut. */
  lemma DecomposeNeedsDash(line: string)
    requires var w := LeadingBlanks(line); !(w + 3 <= |line| && line[w..w + 3] == "- [")
    ensures Decompose(line) == None
  {
  }

  /** Every cut `Decompose` returns is a cut of the line in the language. */
  lemma DecomposeSound(line: string)
    ensures Decompose(line).Some? ==> IsMatch(line, Decompose(line).value)
  {
    if Decompose(line).Some? {
      DecomposeCut(line);
      CutSound(line);
    }
  }

  /** The cut `Decompose` makes once its box is found, by position. */
  ghost predicate CutOf(line: string)
    requires Decompose(line).Some?
  {
    var w := LeadingBlanks(line);
    var close := BoxEnd(line, w);
    && close != 0
    && SplitTail(line[w + close + 2..]).Some?
    && Decompose(line).value == Match(line[..w], line[w + 3..w + close], SplitTail(line[w + close + 2..]).value)
  }

  /** The pieces of a cut `Decompose` returns, by position. */
  lemma DecomposeCut(line: string)
    requires Decompose(line).Some?
    ensures CutOf(line)
  {
  }

  lemma CutSound(line: string)
    requires Decompose(line).Some? && CutOf(line)
    ensures IsMatch(line, Decompose(line).value)
  {
    var w := LeadingBlanks(line);
    var close := BoxEnd(line, w);
    var r := line[w + close + 2..];
    BoxedSound(line, w, close, SplitTail(r).value, Decompose(line).value);
  }

  /** A line with a box found by `BoxEnd` after its leading blanks, and a
      tail cut by `SplitTail` after the box, is in the language. */
  lemma BoxedSound(line: string, w: nat, close: nat, t: Tail, m: Match)
    requires w == LeadingBlanks(line) && close == BoxEnd(line, w) && close != 0
    requires SplitTail(line[w + close + 2..]) == Some(t)
    requires m == Match(line[..w], line[w + 3..w + close], t)
    ensures IsMatch(line, m)
  {
    SplitTailSound(line[w + close + 2..]);
    PrefixSound(line, w, close, t);
  }

  /** The trailing-blank run of `a + b` covers all of the blank suffix `b`. */
  lemma TrailingBlanksCover(a: string, b: string)
    requires AllBlank(b)
    ensures TrailingBlanks(a + b) >= |b|
  {
  }

  /** Blank padding after the first `k` characters does not change the trim. */
  lemma TrimOfPadded(x: string, k: nat)
    requires k <= |x|
    requires forall i :: k <= i < |x| ==> IsBlank(x[i])
    ensures Trim(x[..k]) == Trim(x)
  {
    assert [] + x[..k] + x[k..] == x;
    TrimIgnoresWhitespace([], x[..k], x[k..]);
  }

  /** The leading blank run of `a + b` is exactly `a` when `b` starts with a
      non-blank character. */
  lemma LeadingBlanksOfIndent(a: string, b: string)
    requires AllBlank(a) && b != [] && !IsBlank(b[0])
    ensures LeadingBlanks(a + b) == |a|
  {
    var s := a + b;
    assert s[|a|] == b[0];
    assert forall i :: 0 <= i < |a| ==> s[i] == a[i];
  }

  /** The first `%` of `head + rest` is the first character of `rest`. */
  lemma FirstPercentAt(head: string, rest: string)
    requires Lacks(head, '%') && rest != [] && rest[0] == '%'
    ensures IndexOf(head + rest, '%') == |head|
  {
    var s := head + rest;
    assert s[|head|] == '%';
    assert forall i :: 0 <= i < |head| ==> s[i] == head[i];
  }

  /** A tail cut without a comment: the tail holds no `%`, and its trailing
      blank run covers the cut's trailing blanks. */
  lemma PlainTailFacts(r: string, t: Tail)
    requires IsTailMatch(r, t) && t.comment.None?
    ensures Lacks(r, '%')
    ensures IndexOf(r, '%') == |r|
    ensures TrailingBlanks(r) >= |t.trailing|
    ensures t.text == r[..|t.text|] && t.trailing == r[|t.text|..]
  {
    assert r == t.text + t.trailing;
    TrailingBlanksCover(t.text, t.trailing);
  }

  lemma LayoutFirstPercent(head: string, c: string, trailing: string)
    requires Lacks(head, '%')
    ensures IndexOf(head + "%%" + c + "%%" + trailing, '%') == |head|
  {
    var rest := "%%" + c + "%%" + trailing;
    FirstPercentAt(head, rest);
    assert head + "%%" + c + "%%" + trailing == head + rest;
  }

  lemma LayoutTrailing(head: string, c: string, trailing: string)
    requires AllBlank(trailing)
    ensures TrailingBlanks(head + "%%" + c + "%%" + trailing) == |trailing|
  {
    var body := head + "%%" + c + "%%";
    assert body[|body| - 1] == '%';
    TrailingBlanksOfBlankSuffix(body, trailing);
  }

  lemma LayoutSlices(head: string, c: string, trailing: string)
    ensures var r := head + "%%" + c + "%%" + trailing;
      && r[|head| + 2..|r| - |trailing| - 2] == c
      && r[|r| - |trailing|..] == trailing
      && r[..|head|] == head
      && r[|head|] == '%'
  {
  }

  /** A tail cut with a comment: the first `%` of the tail opens the
      comment, and the trailing blank run of the tail is the cut's. */
  lemma CommentTailFacts(r: string, t: Tail)
    requires IsTailMatch(r, t) && t.comment.Some?
    ensures !Lacks(r, '%')
    ensures IndexOf(r, '%') == |t.text| + |t.gap|
    ensures TrailingBlanks(r) == |t.trailing|
  {
    var head := t.text + t.gap;
    assert r == head + "%%" + t.comment.value + "%%" + t.trailing;
    assert Lacks(head, '%');
    LayoutFirstPercent(head, t.comment.value, t.trailing);
    LayoutTrailing(head, t.comment.value, t.trailing);
    LayoutSlices(head, t.comment.value, t.trailing);
  }

  /** A tail cut with a comment: the title and the gap are the text before
      the first `%`, and the gap lies inside that text's trailing blank run. */
  lemma CommentTailHead(r: string, t: Tail)
    requires IsTailMatch(r, t) && t.comment.Some?
    ensures |t.text| + |t.gap| + 4 + |t.comment.value| + |t.trailing| == |r|
    ensures r[..|t.text| + |t.gap|] == t.text + t.gap
    ensures BlanksBefore(r, |t.text| + |t.gap|) >= |t.gap|
    ensures t.text == r[..|t.text|]
    ensures t.gap == r[|t.text|..|t.text| + |t.gap|]
    ensures t.trailing == r[|r| - |t.trailing|..]
  {
    var head := t.text + t.gap;
    assert r == head + "%%" + t.comment.value + "%%" + t.trailing;
    LayoutSlices(head, t.comment.value, t.trailing);
    assert r[..|t.text|] == head[..|t.text|];
    assert r[|t.text|..|head|] == head[|t.text|..];
  }

  /** The delimiters of a cut's comment sit right after its first `%` and
      right before its trailing blanks, and the comment lies between them. */
  lemma CommentDelimiters(r: string, t: Tail)
    requires IsTailMatch(r, t) && t.comment.Some?
    ensures var p := |t.text| + |t.gap|;
      var e := |r| - |t.trailing|;
      && p + 4 <= e
      && r[p + 1] == '%' && r[e - 2] == '%' && r[e - 1] == '%'
      && r[p + 2..e - 2] == t.comment.value
  {
    LayoutSlices(t.text + t.gap, t.comment.value, t.trailing);
  }

  /** Index form of a cut without a comment whose title has length `a`. */
  lemma PlainCutFacts(r: string, t: Tail)
    requires IsTailMatch(r, t) && t.comment.None?
    ensures |t.text| <= |r| && IndexOf(r, '%') == |r|
    ensures forall i :: |t.text| <= i < |r| ==> IsBlank(r[i])
    ensures t.text == r[..|t.text|] && t.gap == [] && t.trailing == r[|t.text|..]
  {
    PlainTailFacts(r, t);
  }

  /** Index form of a cut with a comment: the title ends at `a`, the gap at
      the first `%`, and the trailing blanks start at `e`. */
  lemma CommentCutFacts(r: string, t: Tail)
    requires IsTailMatch(r, t) && t.comment.Some?
    ensures var a := |t.text|;
      var p := a + |t.gap|;
      var e := |r| - |t.trailing|;
      && p + 4 <= e <= |r|
      && IndexOf(r, '%') == p
      && TrailingBlanks(r) == |t.trailing|
      && r[p + 1] == '%' && r[e - 2] == '%' && r[e - 1] == '%'
      && (forall i :: a <= i < p ==> IsBlank(r[i]))
      && t.text == r[..a] && t.gap == r[a..p]
      && t.comment.value == r[p + 2..e - 2] && t.trailing == r[e..]
  {
    CommentTailFacts(r, t);
    CommentTailHead(r, t);
    CommentDelimiters(r, t);
  }

  /** `SplitTail` on a `%`-free tail whose characters from `a` on are blank:
      the engine's title ends at or before `a`, with blanks in between. */
  lemma SplitTailPlainCut(r: string, a: nat)
    requires a <= |r| && IndexOf(r, '%') == |r|
    requires forall i :: a <= i < |r| ==> IsBlank(r[i])
    ensures var k := |r| - TrailingBlanks(r);
      && k <= a
      && SplitTail(r) == Some(Tail(r[..k], "", None, r[k..]))
      && (forall i :: k <= i < a ==> IsBlank(r[i]))
  {
  }

  /** `SplitTail` on a tail whose first `%` is at `p`, unfolded. */
  lemma SplitTailCommentCase(r: string, p: nat, e: nat)
    requires p == IndexOf(r, '%') && p < |r|
    requires e == |r| - TrailingBlanks(r)
    requires p + 4 <= e && r[p + 1] == '%' && r[e - 2] == '%' && r[e - 1] == '%'
    ensures var k := p - BlanksBefore(r, p);
      SplitTail(r) == Some(Tail(r[..k], r[k..p], Some(r[p + 2..e - 2]), r[e..]))
  {
  }

  /** `SplitTail` on a tail with a comment whose title could end at `a`:
      the engine's title ends at or before `a`, with blanks in between. */
  lemma SplitTailCommentCut(r: string, a: nat, p: nat, e: nat)
    requires a <= p && p + 4 <= e <= |r|
    requires p == IndexOf(r, '%') && e == |r| - TrailingBlanks(r)
    requires r[p + 1] == '%' && r[e - 2] == '%' && r[e - 1] == '%'
    requires forall i :: a <= i < p ==> IsBlank(r[i])
    ensures var k := p - BlanksBefore(r, p);
      && k <= a
      && SplitTail(r) == Some(Tail(r[..k], r[k..p], Some(r[p + 2..e - 2]), r[e..]))
      && (forall i :: k <= i < a ==> IsBlank(r[i]))
  {
    SplitTailCommentCase(r, p, e);
  }

  /** The title `r[..k]` trims like any longer title `r[..a]` that only adds
      blanks. */
  lemma TitleTrim(r: string, k: nat, a: nat)
    requires k <= a <= |r|
    requires forall i :: k <= i < a ==> IsBlank(r[i])
    ensures Trim(r[..k]) == Trim(r[..a])
  {
    var x := r[..a];
    assert x[..k] == r[..k];
    TrimOfPadded(x, k);
  }

  /** The engine finds a cut of every tail in the language; its title is no
      longer than any other cut's and trims to the same text, and its comment
      is the same. */
  lemma SplitTailComplete(r: string, t: Tail)
    requires IsTailMatch(r, t)
    ensures SplitTail(r).Some?
    ensures |SplitTail(r).value.text| <= |t.text|
    ensures Trim(SplitTail(r).value.text) == Trim(t.text)
    ensures SplitTail(r).value.comment == t.comment
  {
    if t.comment.None? {
      SplitTailCompletePlain(r, t);
    } else {
      SplitTailCompleteComment(r, t);
    }
  }

  lemma SplitTailCompletePlain(r: string, t: Tail)
    requires IsTailMatch(r, t) && t.comment.None?
    ensures SplitTail(r).Some? && SplitTail(r).value.comment.None?
    ensures |SplitTail(r).value.text| <= |t.text|
    ensures Trim(SplitTail(r).value.text) == Trim(t.text)
  {
    var a := |t.text|;
    var k := |r| - TrailingBlanks(r);
    assert k <= a && t.text == r[..a]
      && SplitTail(r) == Some(Tail(r[..k], "", None, r[k..]))
      && (forall i :: k <= i < a ==> IsBlank(r[i])) by {
      PlainCutFacts(r, t);
      SplitTailPlainCut(r, a);
    }
    TitleTrim(r, k, a);
  }

  lemma SplitTailCompleteComment(r: string, t: Tail)
    requires IsTailMatch(r, t) && t.comment.Some?
    ensures SplitTail(r).Some? && SplitTail(r).value.comment == t.comment
    ensures |SplitTail(r).value.text| <= |t.text|
    ensures Trim(SplitTail(r).value.text) == Trim(t.text)
  {
    CommentCutFacts(r, t);
    CommentCutConclude(r, |t.text|, |t.text| + |t.gap|, |r| - |t.trailing|, t.text, t.comment.value);
  }

  /** `SplitTail` on a tail with a comment between `p` and `e` and a title
      that could end at `a`: the engine finds the same comment and a title
      no longer than `r[..a]` that trims the same. */
  lemma CommentCutConclude(r: string, a: nat, p: nat, e: nat, text: string, c: string)
    requires a <= p && p + 4 <= e <= |r|
    requires p == IndexOf(r, '%') && e == |r| - TrailingBlanks(r)
    requires r[p + 1] == '%' && r[e - 2] == '%' && r[e - 1] == '%'
    requires forall i :: a <= i < p ==> IsBlank(r[i])
    requires text == r[..a] && c == r[p + 2..e - 2]
    ensures SplitTail(r).Some? && SplitTail(r).value.comment == Some(c)
    ensures |SplitTail(r).value.text| <= |text|
    ensures Trim(SplitTail(r).value.text) == Trim(text)
  {
    SplitTailCommentCut(r, a, p, e);
    TitleTrim(r, p - BlanksBefore(r, p), a);
  }

  /** Every piece of a tail cut, read off the tail once the title length is
      known. */
  lemma CutFacts(r: string, t: Tail)
    requires IsTailMatch(r, t)
    ensures |t.text| <= |r| && t.text == r[..|t.text|]
    ensures t.comment.None? <==> IndexOf(r, '%') == |r|
    ensures t.comment.None? ==> t.gap == [] && t.trailing == r[|t.text|..]
    ensures t.comment.Some? ==>
      var p := IndexOf(r, '%');
      var e := |r| - TrailingBlanks(r);
      && |t.text| <= p && p + 4 <= e
      && t.gap == r[|t.text|..p]
      && t.comment.value == r[p + 2..e - 2]
      && t.trailing == r[e..]
  {
    if t.comment.None? {
      PlainCutFacts(r, t);
    } else {
      CommentCutFacts(r, t);
    }
  }

  /** Once the title length is fixed, every other piece of a tail cut is
      forced: the cut the engine picks is the only one of its length. */
  lemma TailDeterminedByText(r: string, t1: Tail, t2: Tail)
    requires IsTailMatch(r, t1) && IsTailMatch(r, t2)
    requires |t1.text| == |t2.text|
    ensures t1 == t2
  {
    CutFacts(r, t1);
    CutFacts(r, t2);
  }

  /** The cut of the fixed prefix `[\t ]*- \[([xX]?)\] ` by position in the
      line: the indentation is the whole leading run of blanks, and the token
      is the one `BoxEnd` settles on. */
  lemma PrefixCut(line: string, m: Match)
    requires IsMatch(line, m)
    ensures var w := |m.indent|;
      var close := 3 + |m.token|;
      && LeadingBlanks(line) == w
      && line[..w] == m.indent
      && BoxEnd(line, w) == close
      && w + close + 2 <= |line|
      && line[w + 3..w + close] == m.token
      && line[w + close + 2..] == TailText(m.tail)
  {
    PrefixPieces(line, m.indent, m.token, TailText(m.tail));
  }

  /** `PrefixCut` for a line spelled from its indentation, token and rest. */
  lemma PrefixPieces(line: string, indent: string, token: string, rest: string)
    requires AllBlank(indent) && IsToken(token)
    requires line == indent + ("- [" + token + "] " + rest)
    ensures var w := |indent|;
      var close := 3 + |token|;
      && LeadingBlanks(line) == w
      && line[..w] == indent
      && BoxEnd(line, w) == close
      && w + close + 2 <= |line|
      && line[w + 3..w + close] == token
      && line[w + close + 2..] == rest
  {
    var body := "- [" + token + "] " + rest;
    LeadingBlanksOfIndent(indent, body);
    AppendSlices(indent, body);
    BoxAt(line, |indent|, token, rest);
  }

  /** The two halves of a concatenation, read back by slicing. */
  lemma AppendSlices(a: string, b: string)
    ensures (a + b)[..|a|] == a && (a + b)[|a|..] == b
  {
  }

  /** A line that continues at `w` with `- [`, a token and `] `: `BoxEnd`
      finds that box, and the token and the rest are read back. */
  lemma BoxAt(line: string, w: nat, token: string, rest: string)
    requires IsToken(token)
    requires w <= |line| && line[w..] == "- [" + token + "] " + rest
    ensures var close := 3 + |token|;
      && BoxEnd(line, w) == close
      && w + close + 2 <= |line|
      && line[w + 3..w + close] == token
      && line[w + close + 2..] == rest
  {
    var body := "- [" + token + "] " + rest;
    var close := 3 + |token|;
    assert body[close] == ']' && body[close + 1] == ' ';
    assert body[3..close] == token && body[close + 2..] == rest;
    SliceAfter(line, w, body, close);
  }

  /** Reading the pieces of `body` off a string that continues with it at
      `w`. */
  lemma SliceAfter(line: string, w: nat, body: string, close: nat)
    requires w <= |line| && line[w..] == body
    requires 3 <= close && close + 2 <= |body|
    ensures line[w..w + 3] == body[..3] && line[w + 3..w + close] == body[3..close]
    ensures line[w + close] == body[close] && line[w + close + 1] == body[close + 1]
    ensures line[w + close + 2..] == body[close + 2..]
  {
    assert forall i :: 0 <= i < |body| ==> line[w + i] == body[i];
  }

  /** Every line in the language of the pattern is decomposed: same
      indentation and token, the shortest title, which trims to the same text
      as any other cut's, and the same comment. */
  lemma DecomposeComplete(line: string, m: Match)
    requires IsMatch(line, m)
    ensures Decompose(line).Some?
    ensures Decompose(line).value.indent == m.indent
    ensures Decompose(line).value.token == m.token
    ensures |Decompose(line).value.tail.text| <= |m.tail.text|
    ensures Trim(Decompose(line).value.tail.text) == Trim(m.tail.text)
    ensures Decompose(line).value.tail.comment == m.tail.comment
  {
    SplitTailComplete(TailText(m.tail), m.tail);
    DecomposeOfPieces(line, m.indent, m.token, TailText(m.tail));
  }

  /** `Decompose` on a line spelled from its indentation, token and rest:
      the line is cut exactly when the rest is. */
  lemma DecomposeOfPieces(line: string, indent: string, token: string, rest: string)
    requires AllBlank(indent) && IsToken(token)
    requires line == indent + ("- [" + token + "] " + rest)
    ensures Decompose(line) == if SplitTail(rest).None? then None else Some(Match(indent, token, SplitTail(rest).value))
  {
    PrefixPieces(line, indent, token, rest);
    DecomposeOfPrefix(line, |indent|, 3 + |token|, indent, token, rest);
  }

  /** `Decompose` on a line whose indentation, token and tail are known. */
  lemma DecomposeOfPrefix(line: string, w: nat, close: nat, indent: string, token: string, r: string)
    requires w == LeadingBlanks(line) && close == BoxEnd(line, w) && close != 0
    requires line[..w] == indent && line[w + 3..w + close] == token && line[w + close + 2..] == r
    ensures Decompose(line) == if SplitTail(r).None? then None else Some(Match(indent, token, SplitTail(r).value))
  {
  }

  /** A line in the language has a comment exactly when it holds a `%`:
      the indentation, the box and the title hold none. */
  lemma CommentIffPercent(line: string, m: Match)
    requires IsMatch(line, m)
    ensures m.tail.comment.Some? <==> !Lacks(line, '%')
  {
    var t := m.tail;
    var box := "- [" + m.token + "] ";
    assert Lacks(m.indent, '%');
    assert Lacks(box, '%');
    LacksConcat(m.indent, BodyText(m), '%');
    LacksConcat(box, TailText(t), '%');
    if t.comment.None? {
      LacksConcat(t.text, t.trailing, '%');
    } else {
      assert TailText(t)[|t.text + t.gap|] == '%';
    }
  }

  /** Two cuts of one line with titles of the same length are the same cut;
      with `DecomposeComplete` this says `Decompose` returns exactly the match
      whose title is shortest, which is the one the lazy title group yields. */
  lemma MatchDeterminedByText(line: string, m1: Match, m2: Match)
    requires IsMatch(line, m1) && IsMatch(line, m2)
    requires |m1.tail.text| == |m2.tail.text|
    ensures m1 == m2
  {
    PrefixCut(line, m1);
    PrefixCut(line, m2);
    TailDeterminedByText(TailText(m1.tail), m1.tail, m2.tail);
  }
}

=== FILE: reminder_store.dfy ===
/** The in-memory reminder store that stands in for EventKit in the tests.

    It is two dictionaries: list name to (reminder id to title), and reminder
    id to completion flag. Swift iterates a dictionary in an unspecified
    order; the operations that search the lists for an id take that order as
    a parameter, and the lemmas below show that under the store's invariant
    the result does not depend on it. The random UUID of a new reminder is a
    parameter as well. */
module ReminderStore {
  import opened Wrappers

  type Id = string

  datatype Store = Store(lists: map<string, map<Id, string>>, completion: map<Id, bool>)

  /** The state of a freshly made mock. */
  const Empty: Store := Store(map[], map[])

  /** Every identifier the mock hands out starts with this. */
  const MockPrefix: string := "MOCK-"

  /** The list `name` exists and holds the reminder `id`. */
  predicate InList(s: Store, name: string, id: Id) {
    name in s.lists && id in s.lists[name]
  }

  /** Some list holds the reminder `id`. */
  ghost predicate Stored(s: Store, id: Id) {
    exists name :: InList(s, name, id)
  }

  /** Each reminder lives in at most one list, and it has a completion
      entry exactly when it lives in some list. */
  ghost predicate Valid(s: Store) {
    && (forall id, a, b :: InList(s, a, id) && InList(s, b, id) ==> a == b)
    && (forall id :: id in s.completion <==> Stored(s, id))
  }

  /** `order` is an iteration order of the store's lists: every list name
      exactly once. */
  ghost predicate Enumerates(order: seq<string>, s: Store) {
    && (forall name :: name in order <==> name in s.lists)
    && (forall i, j :: 0 <= i < j < |order| ==> order[i] != order[j])
  }

  /** The first list, from position `j` of `order` on, that holds `id`: the
      `for (listName, _) in reminderLists` search. */
  function HolderFrom(s: Store, order: seq<string>, id: Id, j: nat): (r: Option<string>)
    requires j <= |order|
    ensures r.Some? ==> InList(s, r.value, id)
    ensures r.None? ==> forall i :: j <= i < |order| ==> !InList(s, order[i], id)
    decreases |order| - j
  {
    if j == |order| then None
    else if InList(s, order[j], id) then Some(order[j])
    else HolderFrom(s, order, id, j + 1)
  }

  /** The list a search in iteration order `order` finds `id` in, if any. */
  function Holder(s: Store, order: seq<string>, id: Id): (r: Option<string>)
    requires Enumerates(order, s)
    ensures r.Some? ==> InList(s, r.value, id)
    ensures r.None? <==> !Stored(s, id)
  {
    HolderFrom(s, order, id, 0)
  }

  /** In a valid store the search finds the one list holding `id`, whatever
      the iteration order. */
  lemma HolderUnique(s: Store, order: seq<string>, id: Id, name: string)
    requires Valid(s) && Enumerates(order, s)
    requires InList(s, name, id)
    ensures Holder(s, order, id) == Some(name)
  {
  }

  /** `requestAccess`: the mock always grants access. */
  function RequestAccess(): (granted: bool)
    ensures granted
  {
    true
  }

  /** `ensureReminderList`: adds an empty list `name` unless one exists. */
  function EnsureList(s: Store, name: string): (t: Store)
    ensures t.lists.Keys == s.lists.Keys + {name}
    ensures name in s.lists ==> t == s
    ensures name !in s.lists ==> t.lists[name] == map[]
    ensures forall n :: n in s.lists ==> t.lists[n] == s.lists[n]
    ensures t.completion == s.completion
  {
    if name in s.lists then s else s.(lists := s.lists[name := map[]])
  }

  /** No reminder is gained or lost by `ensureReminderList`. */
  lemma EnsureListKeepsReminders(s: Store, name: string, n: string, id: Id)
    ensures InList(EnsureList(s, name), n, id) <==> InList(s, n, id)
  {
  }

  lemma EnsureListIdempotent(s: Store, name: string)
    ensures EnsureList(EnsureList(s, name), name) == EnsureList(s, name)
  {
  }

  lemma EnsureListPreservesValid(s: Store, name: string)
    requires Valid(s)
    ensures Valid(EnsureList(s, name))
  {
    var t := EnsureList(s, name);
    forall id, a, b | InList(t, a, id) && InList(t, b, id)
      ensures a == b
    {
      EnsureListKeepsReminders(s, name, a, id);
      EnsureListKeepsReminders(s, name, b, id);
    }
    forall id
      ensures Stored(t, id) <==> Stored(s, id)
    {
      if Stored(t, id) {
        var n :| InList(t, n, id);
        EnsureListKeepsReminders(s, name, n, id);
      }
      if Stored(s, id) {
        var n :| InList(s, n, id);
        EnsureListKeepsReminders(s, name, n, id);
      }
    }
  }

  /** The result of `createReminder`: the new state and the new identifier. */
  datatype Created = Created(store: Store, id: Id)

  /** `createReminder(title:in:)`, with `uuid` standing for the random UUID
      string: makes the list if needed, files the reminder under
      `MOCK-<uuid>` with the given title, and marks it not completed. */
  function CreateReminder(s: Store, title: string, listName: string, uuid: string): (r: Created)
    ensures |r.id| == |MockPrefix| + |uuid| && r.id[..|MockPrefix|] == MockPrefix && r.id[|MockPrefix|..] == uuid
    ensures InList(r.store, listName, r.id) && r.store.lists[listName][r.id] == title
    ensures r.store.completion == s.completion[r.id := false]
    ensures r.store.lists.Keys == s.lists.Keys + {listName}
    ensures forall n, id :: id != r.id ==> (InList(r.store, n, id) <==> InList(s, n, id))
    ensures forall n, id :: id != r.id && InList(s, n, id) ==> InList(r.store, n, id) && r.store.lists[n][id] == s.lists[n][id]
  {
    var t := EnsureList(s, listName);
    var id := MockPrefix + uuid;
    Created(Store(t.lists[listName := t.lists[listName][id := title]], t.completion[id := false]), id)
  }

  /** Filing a reminder under an unused identifier keeps the store valid. */
  lemma CreatePreservesValid(s: Store, title: string, listName: string, uuid: string)
    requires Valid(s)
    requires !Stored(s, MockPrefix + uuid)
    ensures Valid(CreateReminder(s, title, listName, uuid).store)
  {
    var r := CreateReminder(s, title, listName, uuid);
    var t := r.store;
    forall id, a, b | InList(t, a, id) && InList(t, b, id)
      ensures a == b
    {
      if id == r.id {
        assert !InList(s, a, id) && !InList(s, b, id);
      }
    }
    forall id
      ensures id in t.completion <==> Stored(t, id)
    {
      if id != r.id {
        if Stored(t, id) {
          var n :| InList(t, n, id);
          assert InList(s, n, id);
        }
        if Stored(s, id) {
          var n :| InList(s, n, id);
          assert InList(t, n, id);
        }
      }
    }
  }

  /** The result of `updateReminder` and `deleteReminder`: the new state and
      whether the reminder was found. */
  datatype Outcome = Outcome(store: Store, found: bool)

  /** `updateReminder(id:title:isCompleted:)`: in the first list (in
      iteration order `order`) that holds `id`, sets its title, and sets its
      completion; an unknown id changes nothing. */
  function UpdateReminder(s: Store, order: seq<string>, id: Id, title: string, completed: bool): (r: Outcome)
    requires Enumerates(order, s)
    ensures r.found <==> Stored(s, id)
    ensures !r.found ==> r.store == s
    ensures r.found ==> r.store.completion == s.completion[id := completed]
    ensures r.found ==> var h := Holder(s, order, id).value; InList(r.store, h, id) && r.store.lists[h][id] == title
    ensures r.store.lists.Keys == s.lists.Keys
    ensures forall n, x :: InList(r.store, n, x) <==> InList(s, n, x)
    ensures forall n, x :: x != id && InList(s, n, x) ==> InList(r.store, n, x) && r.store.lists[n][x] == s.lists[n][x]
  {
    match Holder(s, order, id)
    case None => Outcome(s, false)
    case Some(n) =>
      Outcome(Store(s.lists[n := s.lists[n][id := title]], s.completion[id := completed]), true)
  }

  lemma UpdatePreservesValid(s: Store, order: seq<string>, id: Id, title: string, completed: bool)
    requires Valid(s) && Enumerates(order, s)
    ensures Valid(UpdateReminder(s, order, id, title, completed).store)
  {
    var t := UpdateReminder(s, order, id, title, completed).store;
    forall x
      ensures Stored(t, x) <==> Stored(s, x)
    {
      if Stored(t, x) {
        var n :| InList(t, n, x);
        assert InList(s, n, x);
      }
      if Stored(s, x) {
        var n :| InList(s, n, x);
        assert InList(t, n, x);
      }
    }
  }

  /** `deleteReminder(id:)`: removes `id` from the first list that holds it
      and drops its completion entry; the list itself stays, even if it is
      left empty; an unknown id changes nothing. */
  function DeleteReminder(s: Store, order: seq<string>, id: Id): (r: Outcome)
    requires Enumerates(order, s)
    ensures r.found <==> Stored(s, id)
    ensures !r.found ==> r.store == s
    ensures r.found ==> r.store.completion == s.completion - {id}
    ensures r.found ==> !InList(r.store, Holder(s, order, id).value, id)
    ensures r.store.lists.Keys == s.lists.Keys
    ensures forall n, x :: x != id ==> (InList(r.store, n, x) <==> InList(s, n, x))
    ensures forall n, x :: x != id && InList(s, n, x) ==> InList(r.store, n, x) && r.store.lists[n][x] == s.lists[n][x]
  {
    match Holder(s, order, id)
    case None => Outcome(s, false)
    case Some(n) =>
      Outcome(Store(s.lists[n := s.lists[n] - {id}], s.completion - {id}), true)
  }

  lemma DeletePreservesValid(s: Store, order: seq<string>, id: Id)
    requires Valid(s) && Enumerates(order, s)
    ensures Valid(DeleteReminder(s, order, id).store)
  {
    var r := DeleteReminder(s, order, id);
    var t := r.store;
    if r.found {
      var h := Holder(s, order, id).value;
      forall x
        ensures x in t.completion <==> Stored(t, x)
      {
        if x == id {
          if Stored(t, x) {
            var n :| InList(t, n, x);
            assert n != h;
            assert InList(s, n, x);
          }
        } else {
          if Stored(t, x) {
            var n :| InList(t, n, x);
            assert InList(s, n, x);
          }
          if Stored(s, x) {
            var n :| InList(s, n, x);
            assert InList(t, n, x);
          }
        }
      }
    }
  }

  /** The test helper `getReminderTitle(id:)`: the title in the first list
      that holds `id`. */
  function GetReminderTitle(s: Store, order: seq<string>, id: Id): (r: Option<string>)
    requires Enumerates(order, s)
    ensures r.None? <==> !Stored(s, id)
    ensures r.Some? ==> exists n :: InList(s, n, id) && s.lists[n][id] == r.value
  {
    match Holder(s, order, id)
    case None => None
    case Some(n) => Some(s.lists[n][id])
  }

  /** The test helper `isReminderCompleted(id:)`. */
  function IsReminderCompleted(s: Store, id: Id): (r: Option<bool>)
    ensures r.Some? <==> id in s.completion
    ensures r.Some? ==> r.value == s.completion[id]
  {
    if id in s.completion then Some(s.completion[id]) else None
  }

  /** The test helper `getReminderListName(id:)`. */
  function GetReminderListName(s: Store, order: seq<string>, id: Id): (r: Option<string>)
    requires Enumerates(order, s)
    ensures r.None? <==> !Stored(s, id)
    ensures r.Some? ==> InList(s, r.value, id)
  {
    Holder(s, order, id)
  }

  /** A fresh mock satisfies the invariant. */
  lemma EmptyValid()
    ensures Valid(Empty)
  {
  }

  /** Queries about an identifier the store does not hold all answer nil. */
  lemma UnknownQueries(s: Store, order: seq<string>, id: Id)
    requires Valid(s) && Enumerates(order, s)
    requires !Stored(s, id)
    ensures GetReminderTitle(s, order, id) == None
    ensures GetReminderListName(s, order, id) == None
    ensures IsReminderCompleted(s, id) == None
  {
  }

  /** In a valid store the query answers do not depend on the iteration order. */
  lemma QueriesIgnoreOrder(s: Store, o1: seq<string>, o2: seq<string>, id: Id)
    requires Valid(s) && Enumerates(o1, s) && Enumerates(o2, s)
    ensures GetReminderTitle(s, o1, id) == GetReminderTitle(s, o2, id)
    ensures GetReminderListName(s, o1, id) == GetReminderListName(s, o2, id)
  {
    if Stored(s, id) {
      var n :| InList(s, n, id);
      HolderUnique(s, o1, id, n);
      HolderUnique(s, o2, id, n);
    }
  }

  /** What the tests read back after `createReminder`: the title, the list,
      and completion false. */
  lemma CreateThenQuery(s: Store, title: string, listName: string, uuid: string, order: seq<string>)
    requires Valid(s) && !Stored(s, MockPrefix + uuid)
    requires Enumerates(order, CreateReminder(s, title, listName, uuid).store)
    ensures var r := CreateReminder(s, title, listName, uuid);
      && GetReminderTitle(r.store, order, r.id) == Some(title)
      && GetReminderListName(r.store, order, r.id) == Some(listName)
      && IsReminderCompleted(r.store, r.id) == Some(false)
  {
    var r := CreateReminder(s, title, listName, uuid);
    CreatePreservesValid(s, title, listName, uuid);
    HolderUnique(r.store, order, r.id, listName);
  }

  /** After a successful update the reminder reads back with the new title
      and completion, in the list it was in. */
  lemma UpdateThenQuery(s: Store, order: seq<string>, id: Id, title: string, completed: bool, name: string)
    requires Valid(s) && Enumerates(order, s)
    requires InList(s, name, id)
    ensures var t := UpdateReminder(s, order, id, title, completed).store;
      && GetReminderTitle(t, order, id) == Some(title)
      && GetReminderListName(t, order, id) == Some(name)
      && IsReminderCompleted(t, id) == Some(completed)
  {
    var t := UpdateReminder(s, order, id, title, completed).store;
    HolderUnique(s, order, id, name);
    UpdatePreservesValid(s, order, id, title, completed);
    HolderUnique(t, order, id, name);
  }

  /** After a successful delete the reminder is gone from every list. */
  lemma DeleteThenQuery(s: Store, order: seq<string>, id: Id)
    requires Valid(s) && Enumerates(order, s)
    ensures var t := DeleteReminder(s, order, id).store;
      && !Stored(t, id)
      && GetReminderTitle(t, order, id) == None
      && GetReminderListName(t, order, id) == None
      && IsReminderCompleted(t, id) == None
  {
    DeletePreservesValid(s, order, id);
  }
}

=== FILE: text.dfy ===
/** Character classes and small string functions shared by the checklist
    grammar, the item serialiser and the line splitter.

    Foundation's character sets are written out as explicit predicates over
    Unicode scalar values; trimming and decimal rendering are the two
    Foundation services the parser and `description` rely on. */
module Text {

  /** One character of the class `[\t ]` used throughout the checklist grammar. */
  predicate IsBlank(c: char) {
    c == ' ' || c == '\t'
  }

  /** `CharacterSet.newlines`: U+000A to U+000D, U+0085, U+2028 and U+2029. */
  predicate IsLineBreak(c: char) {
    ('\n' <= c <= '\r') || c == '\U{0085}' || c == '\U{2028}' || c == '\U{2029}'
  }

  /** `CharacterSet.whitespacesAndNewlines`: tab, the line breaks and the
      space separators of general category Zs. */
  predicate IsWhitespace(c: char) {
    || c == '\t'
    || IsLineBreak(c)
    || c == ' '
    || c == '\U{00A0}'
    || c == '\U{1680}'
    || ('\U{2000}' <= c <= '\U{200A}')
    || c == '\U{202F}'
    || c == '\U{205F}'
    || c == '\U{3000}'
  }

  predicate AllBlank(s: string) {
    forall i :: 0 <= i < |s| ==> IsBlank(s[i])
  }

  predicate AllWhitespace(s: string) {
    forall i :: 0 <= i < |s| ==> IsWhitespace(s[i])
  }

  predicate NoLineBreak(s: string) {
    forall i :: 0 <= i < |s| ==> !IsLineBreak(s[i])
  }

  /** `c` does not occur in `s`. */
  predicate Lacks(s: string, c: char) {
    forall i :: 0 <= i < |s| ==> s[i] != c
  }

  /** `c` occurs in a concatenation exactly when it occurs in a part. */
  lemma LacksConcat(a: string, b: string, c: char)
    ensures Lacks(a + b, c) <==> Lacks(a, c) && Lacks(b, c)
  {
    var s := a + b;
    assert forall i :: 0 <= i < |a| ==> s[i] == a[i];
    assert forall i :: 0 <= i < |b| ==> s[|a| + i] == b[i];
  }

  /** Neither end of `s` is a whitespace character. */
  predicate IsTrimmed(s: string) {
    s == [] || (!IsWhitespace(s[0]) && !IsWhitespace(s[|s| - 1]))
  }

  /** Length of the run of spaces and tabs in `s` that starts at `j`. */
  function BlanksFrom(s: string, j: nat): (n: nat)
    requires j <= |s|
    ensures j + n <= |s|
    ensures forall i :: j <= i < j + n ==> IsBlank(s[i])
    ensures j + n < |s| ==> !IsBlank(s[j + n])
    decreases |s| - j
  {
    if j < |s| && IsBlank(s[j]) then 1 + BlanksFrom(s, j + 1) else 0
  }

  /** Length of the run of spaces and tabs in `s` that ends just before `j`. */
  function BlanksBefore(s: string, j: nat): (n: nat)
    requires j <= |s|
    ensures n <= j
    ensures forall i :: j - n <= i < j ==> IsBlank(s[i])
    ensures n < j ==> !IsBlank(s[j - n - 1])
  {
    if j > 0 && IsBlank(s[j - 1]) then 1 + BlanksBefore(s, j - 1) else 0
  }

  /** A maximal blank run ending before `j` is the one `BlanksBefore` finds. */
  lemma {:induction false} BlanksBeforeIs(s: string, j: nat, n: nat)
    requires n <= j <= |s|
    requires forall i :: j - n <= i < j ==> IsBlank(s[i])
    requires n < j ==> !IsBlank(s[j - n - 1])
    ensures BlanksBefore(s, j) == n
  {
    if n > 0 {
      assert IsBlank(s[j - 1]);
      BlanksBeforeIs(s, j - 1, n - 1);
    }
  }

  /** Length of the longest prefix of `s` made of spaces and tabs. */
  function LeadingBlanks(s: string): (n: nat)
    ensures n <= |s|
    ensures forall i :: 0 <= i < n ==> IsBlank(s[i])
    ensures n < |s| ==> !IsBlank(s[n])
  {
    BlanksFrom(s, 0)
  }

  /** Length of the longest suffix of `s` made of spaces and tabs. */
  function TrailingBlanks(s: string): (n: nat)
    ensures n <= |s|
    ensures forall i :: |s| - n <= i < |s| ==> IsBlank(s[i])
    ensures n < |s| ==> !IsBlank(s[|s| - n - 1])
  {
    BlanksBefore(s, |s|)
  }

  /** Appending blanks to a string whose last character is not blank makes
      the appended blanks exactly its trailing run. */
  lemma TrailingBlanksOfBlankSuffix(s: string, b: string)
    requires AllBlank(b)
    requires s != [] && !IsBlank(s[|s| - 1])
    ensures TrailingBlanks(s + b) == |b|
  {
    var sb := s + b;
    assert sb[|s| - 1] == s[|s| - 1];
    assert forall i :: |s| <= i < |sb| ==> sb[i] == b[i - |s|];
    BlanksBeforeIs(sb, |sb|, |b|);
  }

  /** Drops leading whitespace, as the front half of `trimmingCharacters`. */
  function TrimStart(s: string): (r: string)
    ensures |r| <= |s| && r == s[|s| - |r|..]
    ensures r == [] || !IsWhitespace(r[0])
    ensures forall i :: 0 <= i < |s| - |r| ==> IsWhitespace(s[i])
  {
    if s != [] && IsWhitespace(s[0]) then
      TrimStart(s[1..])
    else
      s
  }

  /** Drops trailing whitespace, as the back half of `trimmingCharacters`. */
  function TrimEnd(s: string): (r: string)
    ensures |r| <= |s| && r == s[..|r|]
    ensures r == [] || !IsWhitespace(r[|r| - 1])
    ensures forall i :: |r| <= i < |s| ==> IsWhitespace(s[i])
  {
    if s != [] && IsWhitespace(s[|s| - 1]) then
      TrimEnd(s[..|s| - 1])
    else
      s
  }

  /** `trimmingCharacters(in: .whitespacesAndNewlines)`. */
  function Trim(s: string): (r: string)
    ensures IsTrimmed(r)
  {
    TrimEnd(TrimStart(s))
  }

  /** Trimming leaves nothing exactly when `s` is all whitespace. */
  lemma TrimEmpty(s: string)
    ensures Trim(s) == [] <==> AllWhitespace(s)
  {
    var t := TrimStart(s);
    var r := TrimEnd(t);
    var i := |s| - |t|;
    assert t == [] || r != [] by {
      if t != [] {
        assert !IsWhitespace(t[0]);
      }
    }
    assert r == [] ==> AllWhitespace(s) by {
      if r == [] {
        assert t == [];
      }
    }
    assert AllWhitespace(s) ==> r == [] by {
      if t != [] {
        assert t[0] == s[i];
      }
    }
  }

  /** Trimming only removes characters, so a character absent from `s` is
      absent from its trimmed form. */
  lemma TrimKeepsLacks(s: string, c: char)
    requires Lacks(s, c)
    ensures Lacks(Trim(s), c)
  {
    var t := TrimStart(s);
    var r := TrimEnd(t);
    forall i | 0 <= i < |r|
      ensures r[i] != c
    {
      assert r[i] == t[i] == s[|s| - |t| + i];
    }
  }

  lemma {:induction false} TrimStartDropsWhitespace(w: string, s: string)
    requires AllWhitespace(w)
    ensures TrimStart(w + s) == TrimStart(s)
  {
    if w != [] {
      var ws := w + s;
      assert ws[0] == w[0] && IsWhitespace(w[0]);
      assert ws[1..] == w[1..] + s;
      assert AllWhitespace(w[1..]) by {
        forall i | 0 <= i < |w| - 1
          ensures IsWhitespace(w[1..][i])
        {
          assert w[1..][i] == w[i + 1];
        }
      }
      TrimStartDropsWhitespace(w[1..], s);
    } else {
      assert w + s == s;
    }
  }

  lemma {:induction false} TrimEndDropsWhitespace(s: string, w: string)
    requires AllWhitespace(w)
    ensures TrimEnd(s + w) == TrimEnd(s)
  {
    if w != [] {
      var sw := s + w;
      assert w[|w| - 1] in w;
      assert sw[..|sw| - 1] == s + w[..|w| - 1];
      TrimEndDropsWhitespace(s, w[..|w| - 1]);
    } else {
      assert s + w == s;
    }
  }

  lemma {:induction false} TrimStartKeepsSuffix(s: string, w: string)
    requires !AllWhitespace(s)
    ensures TrimStart(s + w) == TrimStart(s) + w
  {
    var sw := s + w;
    assert sw[0] == s[0];
    if IsWhitespace(s[0]) {
      assert sw[1..] == s[1..] + w;
      NotAllWhitespaceTail(s);
      TrimStartKeepsSuffix(s[1..], w);
    }
  }

  /** Dropping a leading whitespace character keeps a non-whitespace one. */
  lemma NotAllWhitespaceTail(s: string)
    requires !AllWhitespace(s) && IsWhitespace(s[0])
    ensures !AllWhitespace(s[1..])
  {
    var i :| 0 <= i < |s| && !IsWhitespace(s[i]);
    assert s[1..][i - 1] == s[i];
  }

  /** A concatenation is all whitespace exactly when both parts are. */
  lemma AllWhitespaceConcat(a: string, b: string)
    ensures AllWhitespace(a + b) <==> AllWhitespace(a) && AllWhitespace(b)
  {
    var s := a + b;
    assert forall i :: 0 <= i < |a| ==> s[i] == a[i];
    assert forall i :: 0 <= i < |b| ==> s[|a| + i] == b[i];
  }

  /** Whitespace after a string does not change its trimmed form. */
  lemma TrimIgnoresTrailing(s: string, w: string)
    requires AllWhitespace(w)
    ensures Trim(s + w) == Trim(s)
  {
    if AllWhitespace(s) {
      AllWhitespaceConcat(s, w);
      TrimEmpty(s + w);
      TrimEmpty(s);
    } else {
      var t := TrimStart(s);
      TrimStartKeepsSuffix(s, w);
      TrimEndDropsWhitespace(t, w);
    }
  }

  /** Whitespace around a string does not change its trimmed form. */
  lemma TrimIgnoresWhitespace(w1: string, s: string, w2: string)
    requires AllWhitespace(w1) && AllWhitespace(w2)
    ensures Trim(w1 + s + w2) == Trim(s)
  {
    assert w1 + s + w2 == w1 + (s + w2);
    TrimAround(w1, s, w2, w1 + s + w2);
  }

  /** `TrimIgnoresWhitespace` for a string `x` already known to be the
      three parts in a row. */
  lemma TrimAround(w1: string, s: string, w2: string, x: string)
    requires AllWhitespace(w1) && AllWhitespace(w2)
    requires x == w1 + (s + w2)
    ensures Trim(x) == Trim(s)
  {
    TrimIgnoresLeading(w1, s + w2);
    TrimIgnoresTrailing(s, w2);
  }

  /** Whitespace before a string does not change its trimmed form. */
  lemma TrimIgnoresLeading(w: string, s: string)
    requires AllWhitespace(w)
    ensures Trim(w + s) == Trim(s)
  {
    TrimStartDropsWhitespace(w, s);
  }

  /** Trimming a trimmed string changes nothing. */
  lemma TrimOfTrimmed(s: string)
    requires IsTrimmed(s)
    ensures Trim(s) == s
  {
  }

  predicate IsDigit(c: char) {
    '0' <= c <= '9'
  }

  function DigitChar(d: nat): (c: char)
    requires d < 10
    ensures IsDigit(c) && (c as int) - ('0' as int) == d
  {
    (('0' as int) + d) as char
  }

  /** Decimal notation of a natural number, as string interpolation prints it. */
  function NatToString(n: nat): (s: string)
    ensures |s| >= 1
    ensures forall c :: c in s ==> IsDigit(c)
  {
    if n < 10 then [DigitChar(n)] else NatToString(n / 10) + [DigitChar(n % 10)]
  }

  /** Decimal notation of an integer, with a leading `-` when negative. */
  function IntToString(n: int): (s: string)
    ensures s != []
    ensures ']' !in s
    ensures (s[0] == '-') <==> n < 0
  {
    if n < 0 then "-" + NatToString(-n)
    else
      var s := NatToString(n);
      assert s[0] in s;
      s
  }

  /** Value of a string of decimal digits; the reading side of `NatToString`. */
  function DigitsValue(s: string): nat
    requires forall c :: c in s ==> IsDigit(c)
  {
    if s == [] then 0
    else
      assert s[|s| - 1] in s;
      assert IsDigit(s[|s| - 1]);
      DigitsValue(s[..|s| - 1]) * 10 + ((s[|s| - 1] as int) - ('0' as int))
  }

  /** Reads back an optionally signed decimal numeral. */
  function ParseInt(s: string): int
    requires s != []
    requires forall i :: 1 <= i < |s| ==> IsDigit(s[i])
    requires s[0] == '-' || IsDigit(s[0])
  {
    if s[0] == '-' then 0 - DigitsValue(s[1..]) else DigitsValue(s)
  }

  lemma {:induction false} NatToStringRoundTrip(n: nat)
    ensures DigitsValue(NatToString(n)) == n
  {
    if n >= 10 {
      var s := NatToString(n);
      assert s[..|s| - 1] == NatToString(n / 10);
      NatToStringRoundTrip(n / 10);
    }
  }

  /** Reading back the decimal notation of any integer yields that integer. */
  lemma IntToStringRoundTrip(n: int)
    ensures ParseInt(IntToString(n)) == n
  {
    var s := IntToString(n);
    if n < 0 {
      assert s[1..] == NatToString(-n);
      NatToStringRoundTrip(-n);
    } else {
      NatToStringRoundTrip(n);
    }
  }

  /** Distinct integers have distinct decimal notations. */
  lemma IntToStringInjective(m: int, n: int)
    requires IntToString(m) == IntToString(n)
    ensures m == n
  {
    IntToStringRoundTrip(m);
    IntToStringRoundTrip(n);
  }
}

=== FILE: wrappers.dfy ===
/** Optional values and results, the Dafny counterparts of Swift's `T?` and of
    an early exit with an error status. */
module Wrappers {

  datatype Option<+T> = None | Some(value: T)

  datatype Result<+T, +E> = Ok(value: T) | Err(error: E)
}
